=== FILE: README.md ===
# Storefront client core in Dafny

A model of the client-side logic of a small web storefront (a React
application for a shop that sells products with options, bundles and
personalised "Custom Order" items). The logic lives inside React handlers and
effects. Here it is lifted into immutable datatypes and pure functions, and
properties of it are proved:

- **Cart store** (`CartContext`):
  - `addToCart` merges an incoming line with the first line of the same name
    and an identical options object;
  - `removeFromCart` finds the first line whose options agree once the
    personalisation message (`customMSG`) is dropped, then decrements it or
    deletes it;
  - the cart is reseeded when the signed-in user changes;
  - the local effect of `resetCart` is modelled.
- **Cart callers**:
  - the navbar cart's `+`, `−`, checkout and badge (`CartPanel`);
  - the product page (`ItemPage`): option pickers, the cart lookup
    `retrieveItem`, the add, remove and clear buttons, and the bundle-size
    picker;
  - bundle sorting and the default bundle (`Bundles`).
- **Lists and windows**:
  - the drawer's name search, capped at four results, and its open/close
    rule (`Drawer`);
  - the home page's featured window, name truncation and query-string
    dispatch (`Home`);
  - the inventory page's category set and filter, photo slots, category
    field and bundle editor (`Inventory`);
  - the orders page's status tabs, field search, Confirm button, label
    formatter and status colour (`Orders`).
- **Validators**: the route guard (`Access`) and the sign-up checks (`Signup`).

**JavaScript semantics the model relies on** (`Text`, `JsObject`, `Lists`):

- JavaScript objects are modelled as key/value sequences in enumeration order.
  Array-index keys come first, in ascending order; other keys follow in
  insertion order. This matters because `JSON.stringify` equality, which
  `addToCart` uses, is sensitive to key order.
- String helpers follow the JavaScript methods the code calls.
- Filter and slice are modelled with their ordering guarantees.

Prices are integers (cents) and are only ever copied. Handlers that make
several store calls are modelled as a list of calls applied in order
(`ItemPage.Apply`):

- `addToCart` uses a functional state update;
- `removeFromCart` works on the current cart.

When adding, the code compares the whole serialised options object, message
and key order included; when removing, it ignores both. The model follows the
code. `CartContext.MessageIgnoredOnlyByRemove` and
`CartContext.KeyOrderIgnoredOnlyByRemove` prove that the two matches differ.

## Model

| member | source | states |
|---|---|---|
| CartContext.FirstAddMatch | client/src/Contexts/cartContext.tsx:128-132 | the line addToCart merges into: -1 exactly when no line has the same name and the same serialised options, otherwise the first such line |
| CartContext.FirstRemoveMatch | client/src/Contexts/cartContext.tsx:181-200 | the line removeFromCart acts on: -1 exactly when no line has the same name and equal option values with customMSG ignored, otherwise the first such line |
| CartContext.Normalize | client/src/Contexts/cartContext.tsx:125 | a quantity that is not positive is stored as 1; a positive quantity is kept |
| CartContext.AddToCart | client/src/Contexts/cartContext.tsx:123-176 | the cart grows by at most one line and afterwards holds a line that would merge with the incoming one |
| CartContext.DeleteAt | client/src/Contexts/cartContext.tsx:208 | splice(i, 1): lines before i stay, lines after i move down one |
| CartContext.RemoveFromCart | client/src/Contexts/cartContext.tsx:178-227 | a null cart stays null; the cart loses at most one line; it changes only if some line loosely matches |
| CartContext.AddToEmptyCart | client/src/Contexts/cartContext.tsx:125 | adding to a null or empty cart gives exactly one line with the incoming item and its quantity, or 1 if that is not positive |
| CartContext.AddExistingBundle | client/src/Contexts/cartContext.tsx:135-148 | re-adding a bundle already in the cart changes only that line's price; its quantity and every other line are unchanged |
| CartContext.AddExistingLine | client/src/Contexts/cartContext.tsx:151-164 | re-adding a non-bundle line replaces its quantity (normalised, not summed), refreshes price and bundle flag, and leaves other lines alone |
| CartContext.AddNewLine | client/src/Contexts/cartContext.tsx:167-174 | an unmatched item is appended after the unchanged cart with a positive quantity |
| CartContext.AddKeepsKeysUnique | client/src/Contexts/cartContext.tsx:128-174 | if no two lines would be merged before an add, none would be after |
| CartContext.AddKeepsQuantitiesPositive | client/src/Contexts/cartContext.tsx:125-174 | adding keeps every line's quantity at least 1 |
| CartContext.AddMatchIsRemoveMatch | client/src/Contexts/cartContext.tsx:128-132 | every line addToCart would merge with is one removeFromCart would find (also lines 181-200) |
| CartContext.MessageIgnoredOnlyByRemove | client/src/Contexts/cartContext.tsx:131 | two lines differing only in customMSG match for remove but not for add (also lines 186-187) |
| CartContext.SwappedOptionsLooselyEqual | client/src/Contexts/cartContext.tsx:186-197 | two distinct option keys written in either order compare equal for removeFromCart |
| CartContext.KeyOrderIgnoredOnlyByRemove | client/src/Contexts/cartContext.tsx:131 | the same options in a different key order match for remove but not for add (also lines 190) |
| CartContext.PersonalisationsStaySeparate | client/src/Contexts/cartContext.tsx:128-132 | two personalisations of one product added in turn stay two lines (also lines 167-174) |
| CartContext.RemoveWithoutMatch | client/src/Contexts/cartContext.tsx:179-202 | with a null cart or no loosely matching line, removeFromCart changes nothing |
| CartContext.RemoveOutcomes | client/src/Contexts/cartContext.tsx:204-226 | a bundle, a quantity-0 request or a quantity of 1 deletes the matched line; otherwise its quantity drops by exactly 1 and it takes the incoming options and price, other lines unchanged |
| CartContext.RemoveKeepsQuantitiesPositive | client/src/Contexts/cartContext.tsx:204-226 | removing keeps every remaining line's quantity at least 1 |
| CartContext.RemoveCanBreakUniqueKeys | client/src/Contexts/cartContext.tsx:212-219 | a decrement can make two lines identical for addToCart, because it copies the incoming options |
| CartContext.OnUserChange | client/src/Contexts/cartContext.tsx:114-121 | the user effect always leaves a cart: empty without a user, otherwise the user's stored cart |
| CartContext.ResetCart | client/src/Contexts/cartContext.tsx:92-104 | the cart is either kept or emptied; it is emptied exactly when there is a user and the save succeeded |
| CartContext.UserChange | client/src/Contexts/cartContext.tsx:114-121 | after the user effect the store works on the new cart: without a user a remove changes nothing and an add gives exactly one line; with a user every stored line of a cart without mergeable duplicates is the line addToCart finds for itself |
| CartContext.ResetCartEffect | client/src/Contexts/cartContext.tsx:92-104 | resetting twice is resetting once; after a saved reset a remove leaves the cart empty and an add gives exactly the one incoming line |
| CartContext.AddAllDistinct | client/src/Contexts/cartContext.tsx:123-176 | adding lines no two of which would merge gives one line per add |
| CartContext.AddAllDistinctStep | client/src/Contexts/cartContext.tsx:167-174 | the first of several adds that match nothing appends its line, and the rest still match nothing in the longer cart |
| CartContext.AddTwiceReplaces | client/src/Contexts/cartContext.tsx:151-164 | adding a non-bundle product twice leaves one line with the second quantity |
| CartContext.AddBundleTwice | client/src/Contexts/cartContext.tsx:135-148 | adding a bundle twice keeps the first quantity and takes the second price |
| CartContext.FirstAddMatchIsSelf | client/src/Navbar/Cart.tsx:140 | in a cart without mergeable duplicates, a line's own key finds that line |
| CartPanel.Plus | client/src/Navbar/Cart.tsx:140 | + on a line never adds or removes a line |
| CartPanel.Minus | client/src/Navbar/Cart.tsx:135 | − on a line always changes the cart, by removing at most one line |
| CartPanel.PlusIncrements | client/src/Navbar/Cart.tsx:140 | + on a non-bundle line raises its quantity by exactly 1 and changes nothing else |
| CartPanel.PlusOnBundle | client/src/Navbar/Cart.tsx:140 | + on a bundle line leaves the cart as it was |
| CartPanel.MinusOnLine | client/src/Navbar/Cart.tsx:135 | with no earlier loosely matching line, − on a non-bundle line decrements it, or deletes it at quantity 1 |
| CartPanel.MinusOnBundle | client/src/Navbar/Cart.tsx:135 | − on a bundle line deletes it |
| CartPanel.MinusHitsEarlierLine | client/src/Navbar/Cart.tsx:135 | there is a cart where − changes an earlier line that differs only in its message, and not the line pressed |
| CartPanel.CheckoutRequest | client/src/Navbar/Cart.tsx:19-29 | checkout posts nothing for a null or empty cart, and otherwise posts exactly the cart |
| CartPanel.Badge | client/src/Navbar/Cart.tsx:41-45 | the badge appears exactly when the cart has lines and then shows their number |
| CartPanel.BadgeFollowsCart | client/src/Navbar/Cart.tsx:19-45 | checkout posts exactly when a badge is drawn and the badge counts the lines posted; + keeps the count, − lowers it by at most one and hides the badge only by emptying a one-line cart |
| Bundles.SortBySize | client/src/Shop/ItemPage.tsx:211 | the price options sorted by numeric key: sorted, same length and the same entries |
| Bundles.SortSorted | client/src/Shop/ItemPage.tsx:211 | sorting entries that are already in order changes nothing |
| Bundles.FromSortedEntries | client/src/Shop/ItemPage.tsx:210-211 | rebuilding an object from its sorted entries gives the same entries in the same order |
| Bundles.BundleOptsAsStored | client/src/Shop/ItemPage.tsx:208-213 | for array-index keys, the sorted bundle object equals the stored price options |
| Bundles.BundleAmounts | client/src/Shop/ItemPage.tsx:216-220 | one amount per bundle, each the number its key spells |
| Bundles.AmountsAscending | client/src/Shop/ItemPage.tsx:208-220 | the bundle amounts are strictly ascending |
| Bundles.DefaultBundle | client/src/Shop/ItemPage.tsx:223-231 | the default bundle is 1 without bundles, otherwise one of the amounts |
| Bundles.DefaultIsSmallest | client/src/Shop/ItemPage.tsx:223-231 | the default bundle is the smallest amount |
| Bundles.BundlePriceFound | client/src/Shop/ItemPage.tsx:236 | looking up an amount's price finds the price stored under its key (also lines 250, 277) |
| ItemPage.InitialOptionsSpec | client/src/Shop/ItemPage.tsx:466-471 | the pickers start on a one-element list holding the first value of each option except customMSG, skipping options without values |
| ItemPage.SelectKeepsMessage | client/src/Shop/ItemPage.tsx:474-508 | choosing an option value sets that option and carries the page's message over |
| ItemPage.MessageIsLoose | client/src/Shop/ItemPage.tsx:343-351 | typing a message sets customMSG and leaves the options removeFromCart compares unchanged |
| ItemPage.FirstRetrieveMatch | client/src/Shop/ItemPage.tsx:169-195 | the cart line the page finds: -1 exactly when none matches, otherwise the first match |
| ItemPage.RetrieveItem | client/src/Shop/ItemPage.tsx:166-202 | (0, null) for a null cart or no match, otherwise the found line's quantity and options |
| ItemPage.RetrieveFindsAddLine | client/src/Shop/ItemPage.tsx:190-194 | for an ordinary product the page finds the line addToCart would merge into |
| ItemPage.RetrieveFindsRemoveLine | client/src/Shop/ItemPage.tsx:171-189 | for a Custom Order product the page finds the line removeFromCart would act on |
| ItemPage.RetrieveFindsLine | client/src/Shop/ItemPage.tsx:169-195 | the page finds the line addToCart would merge into: always for an ordinary product, and for a Custom Order when the cart holds no other personalisation of it |
| ItemPage.NoOtherVariantSameKey | client/src/Contexts/cartContext.tsx:181-200 | whether the cart holds another variant depends on the product's name and options only, not on its price |
| ItemPage.NoOtherVariantKept | client/src/Contexts/cartContext.tsx:181-200 | a cart made of lines of a cart without other variants, or of lines of exactly these options, holds no other variant |
| ItemPage.AddKeepsNoOtherVariant | client/src/Contexts/cartContext.tsx:123-176 | addToCart brings in no other variant of the product it adds |
| ItemPage.RemoveKeepsNoOtherVariant | client/src/Contexts/cartContext.tsx:204-226 | removeFromCart brings in no other variant of the product it removes |
| ItemPage.Sync | client/src/Shop/ItemPage.tsx:119-163 | after the options effect the page shows the found line's quantity |
| ItemPage.Mount | client/src/Shop/ItemPage.tsx:206-242 | on mount the smallest bundle is chosen and priced from the price options, and the page shows the cart's quantity (also lines 466-471) |
| ItemPage.AddClick | client/src/Shop/ItemPage.tsx:267-302 | a Custom Order without a message sets the error and calls nothing; a bundle already in the cart calls nothing; otherwise one add, of the chosen bundle size at its price or of quantity + 1 |
| ItemPage.RemoveClick | client/src/Shop/ItemPage.tsx:304-324 | nothing at quantity ≤ 0; otherwise one remove, with quantity 0 for bundles and quantity − 1 otherwise |
| ItemPage.ClearClick | client/src/Shop/ItemPage.tsx:326-341 | nothing at quantity 0; otherwise one remove with quantity 0 at the chosen bundle's price, and the message is cleared |
| ItemPage.CustomMessage | client/src/Shop/ItemPage.tsx:343-351 | typing a message clears the error, makes no cart call and writes the message into the options |
| ItemPage.BundleChangeAsWritten | client/src/Shop/ItemPage.tsx:244-265 | a size change with the product in the cart removes the line and adds the new size, but the shown quantity stays the same |
| ItemPage.BundleChange | client/src/Shop/ItemPage.tsx:244-265 | as above, with the shown quantity set to the new size |
| ItemPage.ExactIsFirstLoose | client/src/Contexts/cartContext.tsx:128-132 | with no other variant in the cart, the line addToCart would merge into is also the one removeFromCart acts on (also lines 181-200) |
| ItemPage.OnlyLine | client/src/Contexts/cartContext.tsx:128-132 | in a cart without mergeable duplicates, at most one line matches an incoming item for addToCart |
| ItemPage.DeleteOnlyLine | client/src/Contexts/cartContext.tsx:206-208 | deleting the matched line of such a cart leaves no line that addToCart would merge with |
| ItemPage.DecrementKeepsLine | client/src/Contexts/cartContext.tsx:210-219 | decrementing a non-bundle line of quantity above 1 keeps it the found line, one lower |
| ItemPage.AddWhereNoneMatched | client/src/Contexts/cartContext.tsx:167-174 | an unmatched line with a positive quantity is appended unchanged and is then the line found |
| ItemPage.AddClickKeepsSync | client/src/Shop/ItemPage.tsx:291-301 | for a product without bundles that is not flagged as a bundle, after + the page's quantity equals the quantity of the line it finds; for a Custom Order this holds when the cart holds no other personalisation of it, and a + blocked by an empty message changes nothing |
| ItemPage.AddClickOnFlaggedProductDrifts | client/src/Shop/ItemPage.tsx:291-301 | for a product flagged as a bundle but offering no sizes, + leaves the cart line's quantity as it was while the page shows one more |
| ItemPage.AddBundleKeepsSync | client/src/Shop/ItemPage.tsx:272-290 | for a bundle product and a chosen size of at least 1, including a Custom Order with no other personalisation in the cart, after adding the page's quantity equals the line's |
| ItemPage.RemoveOneFromLine | client/src/Contexts/cartContext.tsx:204-220 | in a cart without mergeable duplicates, when both matches find a non-bundle line, a remove asking for one unit less leaves the add-match finding that quantity, or nothing once it reaches 0 |
| ItemPage.RemoveOneSync | client/src/Contexts/cartContext.tsx:178-227 | with no other variant of the product in the cart, and no two lines addToCart would merge (which the navbar's − can break), Custom Orders included, a remove of one unit leaves the page's lookup finding one less |
| ItemPage.RemoveClickKeepsSync | client/src/Shop/ItemPage.tsx:304-324 | with no other variant of the product in the cart, and no two lines addToCart would merge (which the navbar's − can break), Custom Orders included, after − the page's quantity equals the line's: a product with sizes loses its line and shows 0; any other product shows one less, or 0 once the line is gone |
| ItemPage.ClearClickKeepsSync | client/src/Shop/ItemPage.tsx:326-341 | with no other variant of the product in the cart, and no two lines addToCart would merge (which the navbar's − can break), Custom Orders included, after clearing the product has no line and the page shows 0 |
| ItemPage.BundleSwapResult | client/src/Shop/ItemPage.tsx:262-263 | with no other variant of the product in the cart, and no two lines addToCart would merge (which the navbar's − can break), the remove-then-add of a change to a size of at least 1 leaves a line whose quantity is the new size |
| ItemPage.BundleChangeKeepsSync | client/src/Shop/ItemPage.tsx:244-265 | with no other variant of the product in the cart, and no two lines addToCart would merge (which the navbar's − can break), the corrected change to a size of at least 1 keeps page and cart in step |
| ItemPage.BundleChangeAsWrittenDrifts | client/src/Shop/ItemPage.tsx:244-265 | with no other variant of the product in the cart, and no two lines addToCart would merge (which the navbar's − can break), the size change as written, to a size of at least 1, leaves the page showing a quantity different from the cart's |
| Drawer.Search | client/src/Navbar/Drawer.tsx:177-197 | at most four results, drawn from the inventory in its order; an empty term gives the first four products; otherwise the first four products whose name starts with the term, or, when none does, the first four whose name contains it |
| Drawer.PrefixMatches | client/src/Navbar/Drawer.tsx:184-191 | the products whose lower-cased name starts with the term, in inventory order, each as often as the inventory lists it |
| Drawer.ContainsMatches | client/src/Navbar/Drawer.tsx:193-195 | the products whose lower-cased name contains the term, in inventory order, each as often as the inventory lists it |
| Drawer.SearchShowsFirstMatches | client/src/Navbar/Drawer.tsx:181-197 | the suggestions for a term are the first four of the list it selects, or the whole list when it is shorter |
| Drawer.SearchPrefersPrefix | client/src/Navbar/Drawer.tsx:184-191 | if some name starts with the lower-cased term, every result does, and such a product is listed unless four already are |
| Drawer.SearchFallsBackToContains | client/src/Navbar/Drawer.tsx:193-195 | otherwise the results are the products whose lower-cased name contains the term |
| Drawer.SuggestionsContainTerm | client/src/Navbar/Drawer.tsx:181-195 | for a non-empty term, every result's lower-cased name contains the lower-cased term |
| Drawer.LoadedSuggestions | client/src/Navbar/Drawer.tsx:142-145 | once loaded, the list is the first four products in order, or all when there are fewer; while fetching it is left as it was |
| Drawer.LoadedIsEmptySearch | client/src/Navbar/Drawer.tsx:142-145 | the list shown once loaded is the list an empty search box shows |
| Drawer.ToggleDrawer | client/src/Navbar/Drawer.tsx:29-32 | an open drawer on desktop stays open; otherwise the click flips it |
| Drawer.TogglePresses | client/src/Navbar/Drawer.tsx:29-32 | on mobile n clicks leave the drawer as it was exactly when n is even; on desktop, once open, it stays open |
| Home.Reset | client/src/Home/Home.tsx:129-133 | a layout change puts the window at the start, spanning the layout's size |
| Home.MoveLeft | client/src/Home/Home.tsx:138-145 | at the start nothing moves; otherwise the window moves one left and keeps its span |
| Home.MoveRight | client/src/Home/Home.tsx:147-156 | either nothing moves, or the window moves one right, keeps its span and stays inside the list |
| Home.Slice | client/src/Home/Home.tsx:136 | slice with clamped bounds: the exact slice when in range, never longer than the list |
| Home.Visible | client/src/Home/Home.tsx:136 | the products on screen are consecutive products from the window's left index on, never more than the window covers |
| Home.VisibleAtMostWindow | client/src/Home/Home.tsx:136 | after a reset or a move the carousel shows at most span + 1 products |
| Home.MoveRightWhenRoom | client/src/Home/Home.tsx:136-156 | with room on the right, a full window shows span + 1 products and moving right advances it |
| Home.RightThenLeft | client/src/Home/Home.tsx:138-156 | a right move that moves, followed by a left move, returns to the window it started from |
| Home.LeftThenRight | client/src/Home/Home.tsx:138-156 | away from the left end, a left move followed by a right move returns to the window it started from, when there is room on the right |
| Home.MovesStayInside | client/src/Home/Home.tsx:129-156 | any sequence of moves keeps the span and keeps the window inside the list |
| Home.Caption | client/src/Home/Home.tsx:245-248 | a name within the limit (20 on desktop, 8 otherwise) is shown whole; a longer one is cut to the limit plus "..." |
| Home.CaptionShape | client/src/Home/Home.tsx:245-248 | a caption is at most the limit plus three long, begins with as much of the name as fits, and captioning it again changes nothing |
| Home.Landing | client/src/Home/Home.tsx:24-37 | scroll to the custom form exactly when customOrder=true and the form is shown; clear the cart exactly when session_id=true and the scroll did not happen |
| Home.LandingPrecedence | client/src/Home/Home.tsx:24-37 | the custom-order link wins over a payment return when the section is shown; without "true" in either parameter the page stays; a payment return alone never leaves the page as it was |
| Home.PaymentReturnEmptiesCart | client/src/Home/Home.tsx:32-35 | returning from payment empties a signed-in user's cart once the save succeeds |
| Inventory.Dedup | client/src/Inventory/Inventory.tsx:72-88 | a Set's enumeration holds exactly the elements added to it |
| Inventory.DedupDistinct | client/src/Inventory/Inventory.tsx:72-88 | a Set's enumeration holds each element once |
| Inventory.AddCategories | client/src/Inventory/Inventory.tsx:76-83 | adding one product's categories to the Set in turn gives the Set of everything seen so far |
| Inventory.CollectCategories | client/src/Inventory/Inventory.tsx:72-88 | the category list is every product's categories, each once, in order of first appearance |
| Inventory.CategoryHasOwner | client/src/Inventory/Inventory.tsx:72-88 | every listed category belongs to some product |
| Inventory.ShownItems | client/src/Inventory/Inventory.tsx:90-96 | "All" lists the whole inventory; any other filter lists, in order, exactly the products with that category, each as often as the inventory holds it |
| Inventory.OfferedCategoryNotEmpty | client/src/Inventory/Inventory.tsx:72-96 | filtering by an offered category never gives an empty list |
| Inventory.KeepEmptySlot | client/src/Inventory/Inventory.tsx:246-250 | afterwards there is an empty slot; one is appended only when none was left |
| Inventory.EditSlots | client/src/Inventory/Inventory.tsx:233-238 | the edit form starts with the product's photos followed by an empty slot |
| Inventory.PhotoChange | client/src/Inventory/Inventory.tsx:241-254 | the slot takes the new photo and the list grows by at most one, an empty slot being appended only when none is left; afterwards an empty slot exists (also lines 449-462) |
| Inventory.PhotoRemove | client/src/Inventory/Inventory.tsx:256-276 | a list of one slot is cleared, not shrunk; a longer list loses exactly that slot and keeps the rest in order; an empty slot is appended only when none is left, so one always exists (also lines 464-484) |
| Inventory.SavedIgnoresSpareSlot | client/src/Inventory/Inventory.tsx:293-297 | the spare empty slot never reaches the saved photos (also lines 486-492) |
| Inventory.SavedSplit | client/src/Inventory/Inventory.tsx:293-297 | the saved photos of a slot list are those of the slots before a given slot, of that slot, and of the slots after it, in that order |
| Inventory.SavedAfterChange | client/src/Inventory/Inventory.tsx:241-254 | a change replaces that slot's photo in the saved list and keeps the others in order (also lines 293-297) |
| Inventory.SavedAfterRemove | client/src/Inventory/Inventory.tsx:256-276 | removing from several slots drops exactly that slot's photo; removing the only slot leaves nothing saved (also lines 293-297) |
| Inventory.CategoriesFromInput | client/src/Inventory/Inventory.tsx:279-285 | the field splits into at least one category, and joining them again gives the text back (also lines 536-542) |
| Inventory.CategoriesRoundTrip | client/src/Inventory/Inventory.tsx:369 | reading the shown field back gives the categories again when there is at least one and none holds a comma (also lines 575, 279-285) |
| Inventory.NoCategoriesReadBackBlank | client/src/Inventory/Inventory.tsx:369 | a product without categories reads back as one blank category (also lines 279-285) |
| Inventory.Settle | client/src/Inventory/Inventory.tsx:663-669 | a selected size with a price shows it ("" for 0) and is locked exactly when the price is not 0; otherwise nothing changes |
| Inventory.AddBundle | client/src/Inventory/Inventory.tsx:671-678 | a blank draft changes nothing; otherwise the draft is selected and the draft field clears |
| Inventory.AddBundleSpec | client/src/Inventory/Inventory.tsx:671-678 | the new size is priced 0 (even over an old price), selected and unlocked; no other size changes |
| Inventory.RemoveBundle | client/src/Inventory/Inventory.tsx:773-785 | only that size goes; the selection becomes the first remaining size, or "" when none remain |
| Inventory.SelectBundle | client/src/Inventory/Inventory.tsx:789 | clicking a size selects it; clicking the selected size again changes nothing, so a typed price stays; another size shows its stored price ("" for 0) and is locked exactly when that price is not 0 |
| Inventory.RemovePrice | client/src/Inventory/Inventory.tsx:687-691 | the selected size's price becomes 0, the field clears and unlocks, and no other size changes |
| Inventory.SetPrice | client/src/Inventory/Inventory.tsx:680-685 | an unparsable price changes nothing |
| Inventory.PricingKeepsSizes | client/src/Inventory/Inventory.tsx:680-691 | pricing keeps the sizes and their order; the price is stored; a price of 0, or a removed price, leaves the size unlocked |
| Inventory.EditorStaysConsistent | client/src/Inventory/Inventory.tsx:663-691 | every editor action keeps the selection valid and the lock in step with the selected price (also lines 773-789) |
| Orders.Written | client/src/Inventory/Orders.tsx:88-91 | the status an editor button writes is the lower-case form of its stage's tab label, made only of lower-case letters and '_' (also lines 343-362) |
| Orders.StageForms | client/src/Inventory/Orders.tsx:36-46 | a tab label lower-cases to the status its button writes, and that status is unchanged by lower-casing and trimming (also lines 88-91, 343-362) |
| Orders.WrittenDistinct | client/src/Inventory/Orders.tsx:343-362 | the three editor buttons write three different statuses |
| Orders.StatusFiltered | client/src/Inventory/Orders.tsx:36-46 | an empty filter leaves the list alone; "All" shows every order; any other tab shows, in order, exactly the orders whose status matches it case-insensitively and ignoring surrounding white space, each as often as the list holds it |
| Orders.EditedOrderUnderItsTab | client/src/Inventory/Orders.tsx:36-46 | an order whose status was set by an editor button is listed under that stage's tab and no other (also lines 88-91, 343-362) |
| Orders.SearchOrders | client/src/Inventory/Orders.tsx:118-131 | keeps, in order and with their multiplicity, the orders whose field contains the term: strings case-insensitively, numbers by decimal form, nothing else |
| Orders.EmptySearch | client/src/Inventory/Orders.tsx:118-131 | an empty search by date keeps every order; by id, every order that has one |
| Orders.SearchIgnoresCase | client/src/Inventory/Orders.tsx:122-124 | for text fields the term's case does not matter |
| Orders.ConfirmAsWritten | client/src/Inventory/Orders.tsx:212-222 | an update goes out exactly when the order has an id and the capitalised status or the tracking number differs from the order's own; it carries the edited status and tracking number |
| Orders.SeedStatus | client/src/Inventory/Orders.tsx:196-197 | the status field starts non-empty: the order's status, or " " when it has none |
| Orders.SeedTracking | client/src/Inventory/Orders.tsx:196-197 | the tracking field starts non-empty: the order's tracking number when it has a non-empty one, and " " when it has none or an empty one |
| Orders.UntouchedConfirmSendsAsWritten | client/src/Inventory/Orders.tsx:196-222 | on an order without a tracking number, Confirm sends an update although nothing was edited |
| Orders.UntouchedNewOrderSends | client/src/Inventory/Orders.tsx:196-222 | a concrete such order |
| Orders.Confirm | client/src/Inventory/Orders.tsx:212-222 | corrected Confirm: an update goes out exactly when the order has an id and the capitalised status or the tracking number differs from the values the edit form started from; the same request |
| Orders.ConfirmUntouchedSendsNothing | client/src/Inventory/Orders.tsx:196-222 | corrected Confirm without an edit sends nothing |
| Orders.ConfirmSendsEdits | client/src/Inventory/Orders.tsx:212-222 | corrected Confirm sends whenever the tracking number or the capitalised status was edited |
| Orders.ConfirmAgreesWhenFieldsSet | client/src/Inventory/Orders.tsx:196-222 | on orders with a status and a tracking number the correction behaves exactly as written |
| Orders.CapitalizeIdempotent | client/src/Inventory/Orders.tsx:215-216 | capitalising twice is capitalising once |
| Orders.ConfirmIgnoresCapitalizing | client/src/Inventory/Orders.tsx:212-222 | submitting the untouched form, or only capitalising the status, sends nothing |
| Orders.Capitalize | client/src/Inventory/Orders.tsx:215-216 | the same length; the first character upper-cased, the rest unchanged (also lines 279, 299) |
| Orders.JoinCapitalized | client/src/Inventory/Orders.tsx:274-300 | capitalising each word of a space-separated label only upper-cases letters of it |
| Orders.ResemblesKeepsShape | client/src/Inventory/Orders.tsx:274-300 | upper-casing letters introduces no underscore and no leading or trailing white space |
| Orders.FormatLabel | client/src/Inventory/Orders.tsx:274-300 | a formatted label contains no underscore and neither starts nor ends with white space |
| Orders.StatusColour | client/src/Inventory/Orders.tsx:336-338 | red exactly for "added", orange exactly for "in_progress", green for anything else, compared in lower case |
| Orders.BadgeMatchesEditorButton | client/src/Inventory/Orders.tsx:336-362 | the badge of an edited order has the colour of the button that set it, however its tab spells the status |
| Access.Permitted | client/src/App.tsx:21-30 | the page is granted exactly when there is a user and some allowed role equals the user's role once both are lower-cased and trimmed |
| Access.Denials | client/src/App.tsx:21-30 | no user, or no allowed roles, always denies |
| Access.GrantIgnoresOrder | client/src/App.tsx:24-29 | the decision depends only on which roles are allowed, not on their order or repetition |
| Access.GrantIgnoresCase | client/src/App.tsx:25 | users whose roles agree after lower-casing and trimming get the same decision |
| Signup.SignUp | client/src/Login/Signup.tsx:42-64 | any blank field gives "All credentials must be entered"; otherwise different passwords give "Passwords must be the same"; a request goes out exactly when both checks pass |
| Signup.RequestIsConfirmed | client/src/Login/Signup.tsx:53-58 | a request carries the typed e-mail and a password typed twice the same, both non-empty |
| Signup.MissingBeforeMismatch | client/src/Login/Signup.tsx:43-51 | a blank field is reported even when the passwords also differ |

## Left out

- Network and storage. The following are left out:
  - axios and React Query fetching, and cache invalidation;
  - authentication (login, logout, token refresh);
  - the debounced cart save and the `beforeunload` flush;
  - the `resetCart` PUT. Its outcome is the `saved` parameter of `CartContext.ResetCart`.
- Timers: the debounce wrappers in the drawer and orders searches, the auto-rotating carousels and timed error dismissal. The searches are modelled as the function the debounce finally calls.
- Rendering, DOM events, scrolling, window resizing, file upload and image hosting. Whether the custom-order section is on screen is a parameter of `Home.Landing`, and the desktop breakpoint is a boolean.
- Options missing from an item (`options || {}`): an item always has an options object here.
- A category stored as a single string (client/src/Inventory/Inventory.tsx:75-78): the product record types it as a list, and only the list case is modelled.
- Number formatting and parsing:
  - `toFixed`, the `/ 100` price display, `Number(...)` on bundle keys and `parseFloat` on the price field are left out;
  - prices are integers;
  - quantities are integers, where the source holds a JavaScript number;
  - `Inventory.SetPrice` takes the parsed number, with None for NaN;
  - the price field shows `IntToString` of the price.
- Bundle keys that are not array-index numerals. `ItemPage.Mount` requires every price-option key to be one (`PriceOptionsOk`), because `Number(key)` of any other key gives NaN or a fraction and the sort comparator is then meaningless.
- The branch of the product page's options effect that clears the message when the options change (client/src/Shop/ItemPage.tsx:131-150). `ItemPage.Sync` models the branch that takes the message from the found line, plus the quantity update.
- ItemPage.AddClickKeepsSync: stated only for a product not flagged as a bundle (`!p.temp.isBundle`). A product whose bundle editor was opened is flagged even without sizes, and then + does not keep page and cart in step: `ItemPage.AddClickOnFlaggedProductDrifts` proves the drift. For a Custom Order it is also stated only for carts holding no other personalisation of the product (`NoOtherVariant`). Otherwise the page's lookup, which ignores the message, can find a different line from the one addToCart merges into.
- ItemPage.AddBundleKeepsSync: the same restriction for Custom Orders as `ItemPage.AddClickKeepsSync`. It is also stated only for a chosen size of at least 1. The bundle editor accepts the size "0", and adding it stores quantity 1 (a quantity that is not positive is normalised) while the page shows 0.
- ItemPage.RemoveOneFromLine: stated for carts in which no two lines would be merged by addToCart (`UniqueAddKeys`). The navbar's − can break this, as `CartContext.RemoveCanBreakUniqueKeys` and `CartPanel.MinusHitsEarlierLine` show.
- ItemPage.RemoveClickKeepsSync: stated for carts holding no other variant of the product (`NoOtherVariant`) in which no two lines would be merged by addToCart (`UniqueAddKeys`). For a product without sizes, the cart must also hold no bundle line of the same name. Otherwise removeFromCart can act on an earlier line, as `CartPanel.MinusHitsEarlierLine` shows. With a duplicate line, a second line of the product survives.
- ItemPage.RemoveOneSync: stated for carts holding no other variant of the product, no two lines addToCart would merge, and no bundle line of the same name.
- ItemPage.ClearClickKeepsSync: stated for carts holding no other variant of the product and no two lines addToCart would merge. After the navbar's − has made two lines of one personalisation, clearing removes only the first, and the page shows 0 while the other stays.
- ItemPage.BundleSwapResult: stated for carts holding no other variant of the product and no two lines addToCart would merge. It is also stated only for a new size of at least 1; the size "0" is stored as quantity 1.
- ItemPage.BundleChangeKeepsSync: the same restrictions as `ItemPage.BundleSwapResult`.
- ItemPage.BundleChangeAsWrittenDrifts: the same restrictions as `ItemPage.BundleSwapResult`.
- The effect that copies the edited bundles into the product being edited (client/src/Inventory/Inventory.tsx:655-661) is not modelled. Besides copying the sizes, it sets the product's bundle flag as soon as the bundle editor opens, even with no sizes. `ItemPage.AddClickOnFlaggedProductDrifts` states what + then does on such a product's page.
- The custom order form and the rest of the home, shop, about, policy, settings, login and reset pages.
- Text:
  - string lengths count Dafny characters, not UTF-16 code units;
  - lower- and upper-casing change ASCII letters only;
  - `trim` uses the JavaScript white-space set.

## Findings

| source | as written | input that shows it | evidently intended | confidence | as-written member | corrected member |
|---|---|---|---|---|---|---|
| client/src/Inventory/Orders.tsx:196-197, 212-222 | The edit state is seeded with " " when the order's tracking number is missing or empty, but Confirm compares the edit state with the order's own field. | An order with an id and no tracking number, Confirm pressed without editing: " " differs from the missing value, so an update is sent. | Confirm sends only when something was edited. | not executed | Orders.UntouchedConfirmSendsAsWritten | Orders.ConfirmUntouchedSendsNothing |
| client/src/Shop/ItemPage.tsx:244-265 | A bundle-size change with the product in the cart replaces the line with one of the new size, but never updates the page's quantity. | Bundles of 2 and 5; 2 in the cart and on the page; choose 5: the cart line says 5 and the page still says 2. | The page shows the new size, as `handleAddToCart` does with `setQuantity`. | not executed | ItemPage.BundleChangeAsWrittenDrifts | ItemPage.BundleChangeKeepsSync |

=== FILE: access.dfy ===
/** The route guard: a protected page renders only for a signed-in user
    whose role is one of the page's allowed roles. */
module Access {
  import opened Text
  import opened Interfaces

  /** Roles are compared lower-cased and trimmed. */
  predicate RoleMatches(allowed: string, role: string) {
    Normal(allowed) == Normal(role)
  }

  /** Whether some allowed role matches the user's. */
  predicate Grants(allowedRoles: seq<string>, user: Option<User>) {
    user.Some? && exists k :: 0 <= k < |allowedRoles| && RoleMatches(allowedRoles[k], user.value.role)
  }

  /** A role in the form the comparison uses. */
  function Normal(role: string): string {
    Trim(Lower(role))
  }

  /** ProtectedComponent: scans the allowed roles and stops at the first
      match. */
  method Permitted(allowedRoles: seq<string>, user: Option<User>) returns (granted: bool)
    ensures granted <==> Grants(allowedRoles, user)
  {
    if user.None? {
      return false;
    }
    var want := Normal(user.value.role);
    var i := 0;
    while i < |allowedRoles|
      invariant 0 <= i <= |allowedRoles|
      invariant forall k :: 0 <= k < i ==> !RoleMatches(allowedRoles[k], user.value.role)
    {
      if Normal(allowedRoles[i]) == want {
        assert RoleMatches(allowedRoles[i], user.value.role);
        return true;
      }
      i := i + 1;
    }
    return false;
  }

  /** Without a user, or without allowed roles, the page is never shown. */
  lemma Denials(allowedRoles: seq<string>, user: Option<User>)
    ensures user.None? ==> !Grants(allowedRoles, user)
    ensures allowedRoles == [] ==> !Grants(allowedRoles, user)
  {
  }

  /** The decision depends only on which roles are allowed, not on their
      order or repetition. */
  lemma GrantIgnoresOrder(a: seq<string>, b: seq<string>, user: Option<User>)
    requires forall r :: r in a <==> r in b
    ensures Grants(a, user) <==> Grants(b, user)
  {
    if Grants(a, user) {
      var k :| 0 <= k < |a| && RoleMatches(a[k], user.value.role);
      assert a[k] in b;
    }
    if Grants(b, user) {
      var k :| 0 <= k < |b| && RoleMatches(b[k], user.value.role);
      assert b[k] in a;
    }
  }

  /** Users whose roles agree once lower-cased and trimmed are treated alike. */
  lemma GrantIgnoresCase(allowedRoles: seq<string>, u: User, v: User)
    requires Trim(Lower(u.role)) == Trim(Lower(v.role))
    ensures Grants(allowedRoles, Some(u)) <==> Grants(allowedRoles, Some(v))
  {
  }
}

=== FILE: bundles.dfy ===
/** Bundle pricing on the product page: an item's price options map a bundle
    size, written as a decimal key, to the price of that bundle. The page
    sorts the entries by size, rebuilds an object from them, reads the sizes
    back as numbers and preselects the smallest. */
module Bundles {
  import opened Text
  import opened Interfaces
  import JsObject

  type PriceOptions = JsObject.Record<Price>

  /** Every key is a bundle size written as an array-index numeral. */
  predicate AllIndexKeys(r: PriceOptions) {
    forall e :: e in r ==> JsObject.IsArrayIndex(e.0)
  }

  /** Number(key) for a bundle key; other keys never occur in a model input. */
  function Size(e: (string, Price)): nat {
    if JsObject.IsArrayIndex(e.0) then JsObject.IndexValue(e.0) else 0
  }

  /** Entries in non-decreasing order of bundle size. */
  predicate SortedBySize(r: PriceOptions) {
    forall i, j :: 0 <= i < j < |r| ==> Size(r[i]) <= Size(r[j])
  }

  lemma SortedCons(x: (string, Price), t: PriceOptions)
    ensures SortedBySize([x] + t) <==> SortedBySize(t) && forall e :: e in t ==> Size(x) <= Size(e)
  {
    var r := [x] + t;
    if SortedBySize(r) {
      forall i, j | 0 <= i < j < |t| ensures Size(t[i]) <= Size(t[j]) {
        assert t[i] == r[i + 1] && t[j] == r[j + 1];
      }
      forall e | e in t ensures Size(x) <= Size(e) {
        var j :| 0 <= j < |t| && t[j] == e;
        assert r[0] == x && r[j + 1] == e;
      }
    }
    if SortedBySize(t) && forall e :: e in t ==> Size(x) <= Size(e) {
      forall i, j | 0 <= i < j < |r| ensures Size(r[i]) <= Size(r[j]) {
        assert r[j] == t[j - 1] && t[j - 1] in t;
        if i > 0 {
          assert r[i] == t[i - 1];
        }
      }
    }
  }

  /** Inserting an entry into a sorted list keeps it sorted. */
  lemma {:induction false} InsertKeepsSorted(s: PriceOptions, k: string, v: Price)
    requires AllIndexKeys(s) && SortedBySize(s) && JsObject.IsArrayIndex(k)
    ensures AllIndexKeys(JsObject.InsertIndexKey(s, k, v))
    ensures SortedBySize(JsObject.InsertIndexKey(s, k, v))
    decreases |s|
  {
    if s != [] {
      SortedCons(s[0], s[1..]);
      assert s == [s[0]] + s[1..];
      assert s[0] in s;
    }
    if s != [] && Size(s[0]) <= JsObject.IndexValue(k) {
      var t := s[1..];
      assert forall e :: e in t ==> e in s;
      InsertKeepsSorted(t, k, v);
      SortedCons(s[0], JsObject.InsertIndexKey(t, k, v));
    } else {
      SortedCons((k, v), s);
    }
  }

  lemma {:induction false} InsertMultiset(s: PriceOptions, k: string, v: Price)
    requires JsObject.IsArrayIndex(k)
    ensures multiset(JsObject.InsertIndexKey(s, k, v)) == multiset(s) + multiset{(k, v)}
    decreases |s|
  {
    if s != [] && JsObject.IsArrayIndex(s[0].0) && JsObject.IndexValue(s[0].0) <= JsObject.IndexValue(k) {
      InsertMultiset(s[1..], k, v);
      assert s == [s[0]] + s[1..];
    }
  }

  /** The entries sorted by `Number(a) - Number(b)`: a stable insertion sort. */
  function SortBySize(r: PriceOptions): (s: PriceOptions)
    requires AllIndexKeys(r)
    ensures AllIndexKeys(s) && SortedBySize(s)
    ensures |s| == |r| && multiset(s) == multiset(r)
    decreases |r|
  {
    if r == [] then []
    else
      var n := |r| - 1;
      assert r == r[..n] + [r[n]];
      assert forall e :: e in r[..n] ==> e in r;
      var p := SortBySize(r[..n]);
      InsertKeepsSorted(p, r[n].0, r[n].1);
      InsertMultiset(p, r[n].0, r[n].1);
      JsObject.InsertIndexKey(p, r[n].0, r[n].1)
  }

  /** Object.fromEntries: each entry written in turn. */
  function FromEntries(r: PriceOptions): PriceOptions
    decreases |r|
  {
    if r == [] then []
    else
      var n := |r| - 1;
      JsObject.Put(FromEntries(r[..n]), r[n].0, r[n].1)
  }

  /** A key no smaller than every key present goes to the end. */
  lemma {:induction false} InsertAtEnd(s: PriceOptions, k: string, v: Price)
    requires AllIndexKeys(s) && JsObject.IsArrayIndex(k)
    requires forall e :: e in s ==> Size(e) <= JsObject.IndexValue(k)
    ensures JsObject.InsertIndexKey(s, k, v) == s + [(k, v)]
    decreases |s|
  {
    if s != [] {
      assert s[0] in s;
      assert forall e :: e in s[1..] ==> e in s;
      InsertAtEnd(s[1..], k, v);
      assert s == [s[0]] + s[1..];
    }
  }

  lemma PrefixSorted(r: PriceOptions, n: nat)
    requires AllIndexKeys(r) && SortedBySize(r) && n <= |r|
    ensures AllIndexKeys(r[..n]) && SortedBySize(r[..n])
  {
    assert forall e :: e in r[..n] ==> e in r;
  }

  lemma SortStep(r: PriceOptions)
    requires AllIndexKeys(r) && r != []
    ensures AllIndexKeys(r[..|r| - 1]) && JsObject.IsArrayIndex(r[|r| - 1].0)
    ensures SortBySize(r) == JsObject.InsertIndexKey(SortBySize(r[..|r| - 1]), r[|r| - 1].0, r[|r| - 1].1)
  {
    assert r[|r| - 1] in r;
    assert forall e :: e in r[..|r| - 1] ==> e in r;
  }

  lemma SortedLastIsLargest(r: PriceOptions)
    requires AllIndexKeys(r) && SortedBySize(r) && r != []
    ensures forall e :: e in r[..|r| - 1] ==> Size(e) <= JsObject.IndexValue(r[|r| - 1].0)
  {
    var n := |r| - 1;
    assert r[n] in r;
    forall e | e in r[..n] ensures Size(e) <= Size(r[n]) {
      var i :| 0 <= i < n && r[..n][i] == e;
    }
  }

  /** Inserting the largest entry of a sorted list after the rest rebuilds it. */
  lemma InsertLargestLast(r: PriceOptions)
    requires AllIndexKeys(r) && SortedBySize(r) && r != []
    ensures JsObject.InsertIndexKey(r[..|r| - 1], r[|r| - 1].0, r[|r| - 1].1) == r
  {
    var n := |r| - 1;
    assert r[n] in r;
    assert forall e :: e in r[..n] ==> e in r;
    SortedLastIsLargest(r);
    InsertAtEnd(r[..n], r[n].0, r[n].1);
    assert r == r[..n] + [(r[n].0, r[n].1)];
  }

  /** The last step of sorting a sorted list whose prefix sorts to itself. */
  lemma SortSortedStep(r: PriceOptions)
    requires AllIndexKeys(r) && SortedBySize(r) && r != []
    requires SortBySize(r[..|r| - 1]) == r[..|r| - 1]
    ensures SortBySize(r) == r
  {
    SortStep(r);
    InsertLargestLast(r);
  }

  /** Sorting an already sorted list changes nothing. */
  lemma {:induction false} SortSorted(r: PriceOptions)
    requires AllIndexKeys(r) && SortedBySize(r)
    ensures SortBySize(r) == r
    decreases |r|
  {
    if r != [] {
      var n := |r| - 1;
      PrefixSorted(r, n);
      SortSorted(r[..n]);
      SortSortedStep(r);
    }
  }

  lemma PutNewLargest(p: PriceOptions, k: string, v: Price)
    requires AllIndexKeys(p) && JsObject.IsArrayIndex(k) && k !in JsObject.Keys(p)
    requires forall e :: e in p ==> Size(e) <= JsObject.IndexValue(k)
    ensures JsObject.Put(p, k, v) == p + [(k, v)]
  {
    InsertAtEnd(p, k, v);
  }

  lemma PrefixDistinct(r: PriceOptions, n: nat)
    requires JsObject.DistinctKeys(r) && n <= |r|
    ensures JsObject.DistinctKeys(r[..n])
  {
    assert forall i :: 0 <= i < n ==> r[..n][i] == r[i];
  }

  /** The last entry of a sorted list with distinct keys may be written at
      the end of the entries before it. */
  lemma LastEntryAppends(r: PriceOptions)
    requires AllIndexKeys(r) && SortedBySize(r) && JsObject.DistinctKeys(r) && r != []
    ensures var n := |r| - 1;
      JsObject.Put(r[..n], r[n].0, r[n].1) == r
  {
    var n := |r| - 1;
    var p := r[..n];
    PrefixSorted(r, n);
    assert r[n] in r;
    JsObject.LastKeyIsNew(r);
    SortedLastIsLargest(r);
    PutNewLargest(p, r[n].0, r[n].1);
    assert r == p + [r[n]];
  }

  /** Rebuilding an object from sorted entries with distinct keys keeps them
      as they are. */
  lemma {:induction false} FromSortedEntries(r: PriceOptions)
    requires AllIndexKeys(r) && SortedBySize(r) && JsObject.DistinctKeys(r)
    ensures FromEntries(r) == r
    decreases |r|
  {
    if r != [] {
      var n := |r| - 1;
      PrefixSorted(r, n);
      PrefixDistinct(r, n);
      FromSortedEntries(r[..n]);
      LastEntryAppends(r);
    }
  }

  /** currentBundleOpts: the price options sorted by size, or {} when there
      are none. */
  function CurrentBundleOpts(r: PriceOptions): (s: PriceOptions)
    requires AllIndexKeys(r)
  {
    if |r| > 0 then FromEntries(SortBySize(r)) else []
  }

  /** The options of an item that came through JSON are already in size
      order, so the page shows them exactly as stored. */
  lemma {:induction false} BundleOptsAsStored(r: PriceOptions)
    requires JsObject.WellFormed(r) && AllIndexKeys(r)
    ensures CurrentBundleOpts(r) == r
  {
    forall i, j | 0 <= i < j < |r| ensures Size(r[i]) <= Size(r[j]) {
      assert r[j] in r && r[i] in r;
    }
    SortSorted(r);
    FromSortedEntries(r);
  }

  /** bundleAmounts: the keys read as numbers. */
  function BundleAmounts(r: PriceOptions): (a: seq<nat>)
    requires AllIndexKeys(r)
    ensures |a| == |r|
    ensures forall i :: 0 <= i < |r| ==> a[i] == Size(r[i]) && NatToString(a[i]) == r[i].0
  {
    if r == [] then []
    else
      assert r[0] in r;
      assert forall e :: e in r[1..] ==> e in r;
      ValueNatToString(r[0].0);
      [Size(r[0])] + BundleAmounts(r[1..])
  }

  lemma AmountPairAscending(r: PriceOptions, a: seq<nat>, i: nat, j: nat)
    requires JsObject.WellFormed(r) && AllIndexKeys(r) && i < j < |r|
    requires a == BundleAmounts(r)
    ensures a[i] < a[j]
  {
    var ki, kj := r[i].0, r[j].0;
    assert r[i] in r && r[j] in r;
    assert JsObject.IsArrayIndex(ki) && JsObject.IsArrayIndex(kj);
    assert ki != kj;
    ValueNatToString(ki);
    ValueNatToString(kj);
    assert DigitsValue(ki) != DigitsValue(kj);
    assert JsObject.IndexValue(ki) <= JsObject.IndexValue(kj);
  }

  /** Bundle sizes of a well-formed object strictly increase. */
  lemma AmountsAscending(r: PriceOptions)
    requires JsObject.WellFormed(r) && AllIndexKeys(r)
    ensures forall i, j :: 0 <= i < j < |r| ==> BundleAmounts(r)[i] < BundleAmounts(r)[j]
  {
    var a := BundleAmounts(r);
    forall i, j | 0 <= i < j < |r| ensures a[i] < a[j] {
      AmountPairAscending(r, a, i, j);
    }
  }

  /** retrieveBundleAmt: the first bundle size, or 1 without bundles. */
  function DefaultBundle(a: seq<nat>): (n: nat)
    ensures |a| == 0 ==> n == 1
    ensures |a| > 0 ==> n in a
  {
    if |a| > 0 then a[0] else 1
  }

  /** The preselected bundle is the smallest one offered. */
  lemma DefaultIsSmallest(r: PriceOptions)
    requires JsObject.WellFormed(r) && AllIndexKeys(r) && |r| > 0
    ensures forall n :: n in BundleAmounts(r) ==> DefaultBundle(BundleAmounts(r)) <= n
  {
    AmountsAscending(r);
    var a := BundleAmounts(r);
    forall n | n in a ensures a[0] <= n {
      var j :| 0 <= j < |a| && a[j] == n;
    }
  }

  /** `currentBundleOpts[n]`: the number is turned into its decimal key. */
  function BundlePrice(opts: PriceOptions, n: nat): Option<Price> {
    JsObject.Get(opts, NatToString(n))
  }

  /** Every size offered has its price: the numeral read back is the key. */
  lemma BundlePriceFound(r: PriceOptions, i: nat)
    requires JsObject.WellFormed(r) && AllIndexKeys(r) && i < |r|
    ensures BundlePrice(r, BundleAmounts(r)[i]) == Some(r[i].1)
  {
    JsObject.GetUnique(r, r[i].0, r[i].1);
  }
}

=== FILE: cart_context.dfy ===
/** The cart store: the add and remove reducers, the reaction to a change of
    signed-in user, and the local effect of clearing the cart. */
module CartContext {
  import opened Text
  import opened Interfaces
  import JsObject

  /** The option values a line is compared on when removing: every option
      except the personalisation message, as a key/value map. */
  function LooseOptions(o: Options): map<string, seq<string>> {
    map k | k in JsObject.Keys(o) && k != CustomMsgKey :: JsObject.Get(o, k).value
  }

  /** The match addToCart uses: same name and the same options object,
      compared through JSON.stringify, so key order and the personalisation
      message both count. */
  predicate AddMatch(line: CartItem, incoming: CartItem) {
    line.item.name == incoming.item.name && line.item.options == incoming.item.options
  }

  /** The match removeFromCart uses: same name and the same option values
      for every key except the personalisation message, in any key order. */
  predicate RemoveMatch(line: CartItem, incoming: CartItem) {
    line.item.name == incoming.item.name
    && LooseOptions(line.item.options) == LooseOptions(incoming.item.options)
  }

  /** findIndex with AddMatch: the first matching line, or -1. */
  function FirstAddMatch(c: Cart, x: CartItem): (r: int)
    ensures -1 <= r < |c|
    ensures r == -1 <==> forall i :: 0 <= i < |c| ==> !AddMatch(c[i], x)
    ensures r >= 0 ==> AddMatch(c[r], x) && forall i :: 0 <= i < r ==> !AddMatch(c[i], x)
  {
    if c == [] then -1
    else if AddMatch(c[0], x) then 0
    else
      var r := FirstAddMatch(c[1..], x);
      if r == -1 then -1 else r + 1
  }

  /** findIndex with RemoveMatch: the first matching line, or -1. */
  function FirstRemoveMatch(c: Cart, x: CartItem): (r: int)
    ensures -1 <= r < |c|
    ensures r == -1 <==> forall i :: 0 <= i < |c| ==> !RemoveMatch(c[i], x)
    ensures r >= 0 ==> RemoveMatch(c[r], x) && forall i :: 0 <= i < r ==> !RemoveMatch(c[i], x)
  {
    if c == [] then -1
    else if RemoveMatch(c[0], x) then 0
    else
      var r := FirstRemoveMatch(c[1..], x);
      if r == -1 then -1 else r + 1
  }

  /** A quantity that is not positive is read as 1. */
  function Normalize(q: int): (n: int)
    ensures n >= 1
    ensures q >= 1 ==> n == q
  {
    if q > 0 then q else 1
  }

  function WithQuantity(x: CartItem): CartItem {
    x.(quantity := Normalize(x.quantity))
  }

  /** addToCart applied to the previous cart (null or a line list). */
  function AddToCart(cart: Option<Cart>, x: CartItem): (r: Cart)
    ensures cart.Some? ==> |cart.value| <= |r| <= |cart.value| + 1
    ensures FirstAddMatch(r, x) != -1
  {
    if cart.None? || cart.value == [] then [WithQuantity(x)]
    else
      var c := cart.value;
      var i := FirstAddMatch(c, x);
      if x.item.isBundle && i != -1 then
        // a bundle already in the cart only takes the new price
        var r := c[i := c[i].(item := c[i].item.(price := x.item.price))];
        assert AddMatch(r[i], x);
        r
      else if i != -1 then
        // the source also writes `isBundle ? quantity : normalised` here,
        // but the bundle arm cannot be reached after the branch above
        var r := c[i := CartItem(c[i].item.(price := x.item.price, isBundle := x.item.isBundle), Normalize(x.quantity))];
        assert AddMatch(r[i], x);
        r
      else
        var r := c + [WithQuantity(x)];
        assert AddMatch(r[|c|], x);
        r
  }

  function DeleteAt(c: Cart, i: nat): (r: Cart)
    requires i < |c|
    ensures |r| == |c| - 1
    ensures forall j :: 0 <= j < |r| ==> r[j] == if j < i then c[j] else c[j + 1]
  {
    c[..i] + c[i + 1..]
  }

  /** removeFromCart applied to the current cart. */
  function RemoveFromCart(cart: Option<Cart>, x: CartItem): (r: Option<Cart>)
    ensures r.Some? <==> cart.Some?
    ensures r.Some? ==> |cart.value| - 1 <= |r.value| <= |cart.value|
    ensures r.Some? && r.value != cart.value ==> FirstRemoveMatch(cart.value, x) != -1
  {
    if cart.None? then cart
    else
      var c := cart.value;
      var i := FirstRemoveMatch(c, x);
      if i == -1 then cart
      else if c[i].item.isBundle || x.quantity == 0 then Some(DeleteAt(c, i))
      else if c[i].quantity > 1 then
        Some(c[i := CartItem(c[i].item.(options := x.item.options, price := x.item.price), c[i].quantity - 1)])
      else Some(DeleteAt(c, i))
  }

  /** The effect run when the signed-in user changes: the cart is never null
      afterwards; it is the user's stored cart, or empty without a user. */
  function OnUserChange(user: Option<User>): (r: Option<Cart>)
    ensures r.Some?
    ensures user.None? ==> r.value == []
    ensures user.Some? ==> r.value == user.value.cart
  {
    if user.None? then Some([]) else Some(user.value.cart)
  }

  /** The local part of resetCart: nothing without a user, an empty cart once
      the backend accepted the empty cart, no change if that request failed. */
  function ResetCart(cart: Option<Cart>, user: Option<User>, saved: bool): (r: Option<Cart>)
    ensures r == cart || r == Some([])
    ensures r != cart ==> user.Some? && saved
    ensures user.Some? && saved ==> r == Some([])
  {
    if user.None? then cart
    else if saved then Some([])
    else cart
  }

  /** No two lines would be merged by addToCart. */
  predicate UniqueAddKeys(c: Cart) {
    forall i, j :: 0 <= i < j < |c| ==> !AddMatch(c[i], c[j])
  }

  predicate PositiveQuantities(c: Cart) {
    forall i :: 0 <= i < |c| ==> c[i].quantity >= 1
  }

  // ---------------------------------------------------------------- add

  lemma AddToEmptyCart(cart: Option<Cart>, x: CartItem)
    requires cart.None? || cart.value == []
    ensures |AddToCart(cart, x)| == 1
    ensures AddToCart(cart, x)[0].item == x.item
    ensures AddToCart(cart, x)[0].quantity == if x.quantity > 0 then x.quantity else 1
  {
  }

  /** Re-adding a bundle that is in the cart changes only that line's price. */
  lemma AddExistingBundle(c: Cart, x: CartItem, i: nat)
    requires i < |c| && AddMatch(c[i], x) && forall j :: 0 <= j < i ==> !AddMatch(c[j], x)
    requires x.item.isBundle
    ensures |AddToCart(Some(c), x)| == |c|
    ensures AddToCart(Some(c), x)[i] == c[i].(item := c[i].item.(price := x.item.price))
    ensures AddToCart(Some(c), x)[i].quantity == c[i].quantity
    ensures forall j :: 0 <= j < |c| && j != i ==> AddToCart(Some(c), x)[j] == c[j]
  {
  }

  /** Re-adding a non-bundle line replaces its quantity (not a sum) and
      refreshes its price and bundle flag; no other line changes. */
  lemma AddExistingLine(c: Cart, x: CartItem, i: nat)
    requires i < |c| && AddMatch(c[i], x) && forall j :: 0 <= j < i ==> !AddMatch(c[j], x)
    requires !x.item.isBundle
    ensures var r := AddToCart(Some(c), x);
      && |r| == |c|
      && r[i].quantity == (if x.quantity > 0 then x.quantity else 1)
      && r[i].item == c[i].item.(price := x.item.price, isBundle := false)
      && forall j :: 0 <= j < |c| && j != i ==> r[j] == c[j]
  {
  }

  /** A line nothing matches goes to the end, with a positive quantity. */
  lemma AddNewLine(c: Cart, x: CartItem)
    requires forall j :: 0 <= j < |c| ==> !AddMatch(c[j], x)
    ensures var r := AddToCart(Some(c), x);
      && |r| == |c| + 1
      && r[..|c|] == c
      && r[|c|].item == x.item && r[|c|].quantity >= 1
      && (x.quantity >= 1 ==> r[|c|] == x)
  {
  }

  /** addToCart never creates two lines it would itself merge. */
  lemma {:induction false} AddKeepsKeysUnique(cart: Option<Cart>, x: CartItem)
    requires cart.Some? ==> UniqueAddKeys(cart.value)
    ensures UniqueAddKeys(AddToCart(cart, x))
  {
    if cart.Some? && cart.value != [] {
      var c := cart.value;
      var r := AddToCart(cart, x);
      var k := FirstAddMatch(c, x);
      forall i, j | 0 <= i < j < |r|
        ensures !AddMatch(r[i], r[j])
      {
        if k == -1 && j == |c| {
          assert r[i] == c[i];
        } else {
          assert AddMatch(r[i], r[j]) <==> AddMatch(c[i], c[j]);
        }
      }
    }
  }

  lemma AddKeepsQuantitiesPositive(cart: Option<Cart>, x: CartItem)
    requires cart.Some? ==> PositiveQuantities(cart.value)
    ensures PositiveQuantities(AddToCart(cart, x))
  {
  }

  // ---------------------------------------------------------------- matching

  /** Every line addToCart would merge is one removeFromCart would find. */
  lemma AddMatchIsRemoveMatch(line: CartItem, incoming: CartItem)
    requires AddMatch(line, incoming)
    ensures RemoveMatch(line, incoming)
  {
  }

  /** The personalisation message separates lines for addToCart but not for
      removeFromCart. */
  lemma MessageIgnoredOnlyByRemove()
    ensures exists a: CartItem, b: CartItem :: RemoveMatch(a, b) && !AddMatch(a, b)
  {
    var base := Item("Mug", 1000, [], [], 0, "", [], false, [], []);
    var a := CartItem(base.(options := [("color", ["Red"]), (CustomMsgKey, ["Ann"])]), 1);
    var b := CartItem(base.(options := [("color", ["Red"]), (CustomMsgKey, ["Bob"])]), 1);
    assert a.item.options[1] != b.item.options[1];
    assert JsObject.Keys(a.item.options) == JsObject.Keys(b.item.options);
    assert LooseOptions(a.item.options) == map["color" := ["Red"]];
    assert LooseOptions(b.item.options) == map["color" := ["Red"]];
    assert RemoveMatch(a, b);
  }

  /** Two options written in either order compare equal once loosened. */
  lemma SwappedOptionsLooselyEqual(k1: string, v1: seq<string>, k2: string, v2: seq<string>)
    requires k1 != k2
    ensures LooseOptions([(k1, v1), (k2, v2)]) == LooseOptions([(k2, v2), (k1, v1)])
  {
    var a: Options := [(k1, v1), (k2, v2)];
    var b: Options := [(k2, v2), (k1, v1)];
    assert JsObject.Keys(a) == [k1, k2] && JsObject.Keys(b) == [k2, k1];
    assert JsObject.Get(a, k1) == Some(v1) == JsObject.Get(b, k1);
    assert JsObject.Get(a, k2) == Some(v2) == JsObject.Get(b, k2);
  }

  /** Key order separates lines for addToCart but not for removeFromCart. */
  lemma KeyOrderIgnoredOnlyByRemove()
    ensures exists a: CartItem, b: CartItem ::
      && CustomMsgKey !in JsObject.Keys(a.item.options)
      && RemoveMatch(a, b) && !AddMatch(a, b)
  {
    var base := Item("Mug", 1000, [], [], 0, "", [], false, [], []);
    var k1, k2 := "color", "size";
    assert k1[0] != k2[0] && |k1| != |CustomMsgKey| && |k2| != |CustomMsgKey|;
    var c := CartItem(base.(options := [(k1, ["Red"]), (k2, ["L"])]), 1);
    var d := CartItem(base.(options := [(k2, ["L"]), (k1, ["Red"])]), 1);
    SwappedOptionsLooselyEqual(k1, ["Red"], k2, ["L"]);
    assert c.item.options[0] != d.item.options[0];
    assert JsObject.Keys(c.item.options) == [k1, k2];
    assert RemoveMatch(c, d);
  }

  /** Two personalisations of the same product stay two lines: addToCart does
      not ignore the personalisation message. */
  lemma PersonalisationsStaySeparate()
    ensures exists x: CartItem, y: CartItem ::
      && x.item.name == y.item.name
      && |AddToCart(Some(AddToCart(Some([]), x)), y)| == 2
  {
    var base := Item("Mug", 1000, [], [], 0, "", [], false, [], []);
    var x := CartItem(base.(options := [(CustomMsgKey, ["Ann"])]), 1);
    var y := CartItem(base.(options := [(CustomMsgKey, ["Bob"])]), 1);
    assert x.item.options[0] != y.item.options[0];
    assert |AddToCart(Some(AddToCart(Some([]), x)), y)| == 2;
  }

  // ---------------------------------------------------------------- remove

  lemma RemoveWithoutMatch(cart: Option<Cart>, x: CartItem)
    requires cart.None? || forall j :: 0 <= j < |cart.value| ==> !RemoveMatch(cart.value[j], x)
    ensures RemoveFromCart(cart, x) == cart
  {
  }

  /** What removeFromCart does to the first loosely matching line. */
  lemma RemoveOutcomes(c: Cart, x: CartItem, i: nat)
    requires i < |c| && RemoveMatch(c[i], x) && forall j :: 0 <= j < i ==> !RemoveMatch(c[j], x)
    ensures var r := RemoveFromCart(Some(c), x).value;
      && (c[i].item.isBundle || x.quantity == 0 || c[i].quantity <= 1 ==> r == c[..i] + c[i + 1..])
      && (!c[i].item.isBundle && x.quantity != 0 && c[i].quantity > 1 ==>
            && |r| == |c|
            && r[i].quantity == c[i].quantity - 1
            && r[i].item == c[i].item.(options := x.item.options, price := x.item.price)
            && forall j :: 0 <= j < |c| && j != i ==> r[j] == c[j])
  {
  }

  lemma RemoveKeepsQuantitiesPositive(cart: Option<Cart>, x: CartItem)
    requires cart.Some? ==> PositiveQuantities(cart.value)
    ensures RemoveFromCart(cart, x).Some? ==> PositiveQuantities(RemoveFromCart(cart, x).value)
  {
  }

  /** Decrementing copies the incoming options onto the line, so two lines
      that differ only in their personalisation message can end up identical
      for addToCart. */
  lemma RemoveCanBreakUniqueKeys()
    ensures exists c: Cart, x: CartItem ::
      && UniqueAddKeys(c)
      && RemoveFromCart(Some(c), x).Some?
      && !UniqueAddKeys(RemoveFromCart(Some(c), x).value)
  {
    var base := Item("Mug", 1000, [], [], 0, "", [], false, [], []);
    var a := CartItem(base.(options := [(CustomMsgKey, ["Ann"])]), 2);
    var b := CartItem(base.(options := [(CustomMsgKey, ["Bob"])]), 1);
    var c := [a, b];
    assert a.item.options[0] != b.item.options[0];
    assert UniqueAddKeys(c);
    assert RemoveMatch(a, b);
    var r := RemoveFromCart(Some(c), b).value;
    assert r[0].item.options == b.item.options;
    assert AddMatch(r[0], r[1]);
  }

  // ---------------------------------------------------------------- identity

  /** In a cart without mergeable lines, addToCart finds each line when
      given that line's product back. */
  lemma FirstAddMatchIsSelf(c: Cart, i: nat, x: CartItem)
    requires i < |c| && UniqueAddKeys(c) && AddMatch(c[i], x)
    ensures FirstAddMatch(c, x) == i
  {
    var k := FirstAddMatch(c, x);
    if k != i {
      assert k < i;
      assert AddMatch(c[k], c[i]);
    }
  }

  /** After signing out no remove changes the cart and the next add starts a
      new one-line cart; after signing in addToCart finds every stored line
      of the user's product in its own place. */
  lemma UserChange(user: Option<User>, x: CartItem)
    ensures user.None? ==> RemoveFromCart(OnUserChange(user), x) == OnUserChange(user)
    ensures user.None? ==> AddToCart(OnUserChange(user), x) == [WithQuantity(x)]
    ensures user.Some? && UniqueAddKeys(user.value.cart) ==>
      forall i :: 0 <= i < |user.value.cart| ==> FirstAddMatch(OnUserChange(user).value, user.value.cart[i]) == i
  {
    if user.Some? && UniqueAddKeys(user.value.cart) {
      var c := user.value.cart;
      forall i | 0 <= i < |c| ensures FirstAddMatch(c, c[i]) == i {
        FirstAddMatchIsSelf(c, i, c[i]);
      }
    }
  }

  /** Resetting twice is resetting once, and after a saved reset removes do
      nothing and an add starts a one-line cart. */
  lemma ResetCartEffect(cart: Option<Cart>, user: Option<User>, saved: bool, x: CartItem)
    ensures ResetCart(ResetCart(cart, user, saved), user, saved) == ResetCart(cart, user, saved)
    ensures user.Some? && saved ==> RemoveFromCart(ResetCart(cart, user, saved), x) == Some([])
    ensures user.Some? && saved ==> AddToCart(ResetCart(cart, user, saved), x) == [WithQuantity(x)]
  {
  }

  // ---------------------------------------------------------------- sequences of adds

  function AddAll(cart: Option<Cart>, xs: seq<CartItem>): Cart
    decreases |xs|
  {
    if xs == [] then (if cart.None? then [] else cart.value)
    else AddAll(Some(AddToCart(cart, xs[0])), xs[1..])
  }

  /** The first of several such adds appends a line that none of the later
      ones matches, and none of the cart's lines matches them either. */
  lemma AddAllDistinctStep(c: Cart, xs: seq<CartItem>)
    requires xs != []
    requires forall i, j :: 0 <= i < j < |xs| ==> !AddMatch(xs[i], xs[j])
    requires forall i, j :: 0 <= i < |c| && 0 <= j < |xs| ==> !AddMatch(c[i], xs[j])
    ensures AddToCart(Some(c), xs[0]) == c + [WithQuantity(xs[0])]
    ensures var c' := c + [WithQuantity(xs[0])];
      forall i, j :: 0 <= i < |c'| && 0 <= j < |xs[1..]| ==> !AddMatch(c'[i], xs[1..][j])
  {
    AddNewLine(c, xs[0]);
    var c' := c + [WithQuantity(xs[0])];
    forall i, j | 0 <= i < |c'| && 0 <= j < |xs[1..]|
      ensures !AddMatch(c'[i], xs[1..][j])
    {
      assert xs[1..][j] == xs[j + 1];
      if i < |c| {
        assert c'[i] == c[i];
      }
    }
  }

  /** Adding lines no two of which addToCart would merge yields one line per add. */
  lemma {:induction false} AddAllDistinct(c: Cart, xs: seq<CartItem>)
    requires forall i, j :: 0 <= i < j < |xs| ==> !AddMatch(xs[i], xs[j])
    requires forall i, j :: 0 <= i < |c| && 0 <= j < |xs| ==> !AddMatch(c[i], xs[j])
    ensures |AddAll(Some(c), xs)| == |c| + |xs|
    decreases |xs|
  {
    if xs != [] {
      AddAllDistinctStep(c, xs);
      var c' := c + [WithQuantity(xs[0])];
      assert AddAll(Some(c), xs) == AddAll(Some(c'), xs[1..]);
      assert forall i, j :: 0 <= i < j < |xs[1..]| ==> xs[1..][i] == xs[i + 1] && xs[1..][j] == xs[j + 1];
      AddAllDistinct(c', xs[1..]);
    }
  }

  /** Adding the same non-bundle line with quantity q1 and then q2 leaves one line
      holding q2. */
  lemma AddTwiceReplaces(x: CartItem, q1: int, q2: int)
    requires !x.item.isBundle && q1 >= 1 && q2 >= 1
    ensures AddAll(Some([]), [x.(quantity := q1), x.(quantity := q2)]) == [x.(quantity := q2)]
  {
    var a := x.(quantity := q1);
    var b := x.(quantity := q2);
    assert [a, b][1..] == [b];
    var c1 := AddToCart(Some([]), a);
    assert c1 == [a];
    assert AddToCart(Some(c1), b) == [b];
    assert AddAll(Some(c1), [b]) == AddAll(Some([b]), []);
  }

  /** Adding the same bundle twice keeps the first quantity and takes the second price. */
  lemma AddBundleTwice(x: CartItem, p1: Price, p2: Price, q1: int, q2: int)
    requires x.item.isBundle && q1 >= 1
    ensures var a := x.(item := x.item.(price := p1), quantity := q1);
      var b := x.(item := x.item.(price := p2), quantity := q2);
      AddAll(Some([]), [a, b]) == [x.(item := x.item.(price := p2), quantity := q1)]
  {
    var a := x.(item := x.item.(price := p1), quantity := q1);
    var b := x.(item := x.item.(price := p2), quantity := q2);
    assert [a, b][1..] == [b];
    var c1 := AddToCart(Some([]), a);
    assert c1 == [a];
    assert FirstAddMatch(c1, b) == 0;
    var c2 := AddToCart(Some(c1), b);
    assert c2 == [x.(item := x.item.(price := p2), quantity := q1)];
    assert AddAll(Some(c1), [b]) == AddAll(Some(c2), []);
  }
}

=== FILE: cart_panel.dfy ===
/** The cart drop-down in the navigation bar: the +/- buttons on each line,
    the checkout guard and the badge on the cart icon. */
module CartPanel {
  import opened Text
  import opened Interfaces
  import opened CartContext

  /** The + button on line i: addToCart with the line's item and quantity + 1.
      The line matches itself, so + never adds a line. */
  function Plus(c: Cart, i: nat): (r: Cart)
    requires i < |c|
    ensures |r| == |c|
  {
    var x := CartItem(c[i].item, c[i].quantity + 1);
    assert AddMatch(c[i], x);
    AddToCart(Some(c), x)
  }

  /** The - button on line i: removeFromCart with the line itself. The line
      loosely matches itself, so - always changes the cart: it loses a line
      or some line loses a unit. */
  function Minus(c: Cart, i: nat): (r: Option<Cart>)
    requires i < |c|
    ensures r.Some? && |c| - 1 <= |r.value| <= |c|
    ensures r.value != c
  {
    var k := FirstRemoveMatch(c, c[i]);
    assert RemoveMatch(c[i], c[i]);
    var r := RemoveFromCart(Some(c), c[i]);
    assert |r.value| == |c| ==> r.value[k].quantity != c[k].quantity;
    r
  }

  /** In a cart without mergeable lines, + on a non-bundle line raises its
      quantity by one and changes nothing else. */
  lemma PlusIncrements(c: Cart, i: nat)
    requires i < |c| && UniqueAddKeys(c)
    requires !c[i].item.isBundle && c[i].quantity >= 0
    ensures |Plus(c, i)| == |c|
    ensures Plus(c, i)[i] == c[i].(quantity := c[i].quantity + 1)
    ensures forall j :: 0 <= j < |c| && j != i ==> Plus(c, i)[j] == c[j]
  {
    FirstAddMatchIsSelf(c, i, CartItem(c[i].item, c[i].quantity + 1));
  }

  /** In a cart without mergeable lines, + on a bundle line changes nothing. */
  lemma PlusOnBundle(c: Cart, i: nat)
    requires i < |c| && UniqueAddKeys(c) && c[i].item.isBundle
    ensures Plus(c, i) == c
  {
    FirstAddMatchIsSelf(c, i, CartItem(c[i].item, c[i].quantity + 1));
  }

  /** When no earlier line loosely matches, - on a non-bundle line lowers a
      quantity above one by one and removes a line holding one. */
  lemma MinusOnLine(c: Cart, i: nat)
    requires i < |c| && forall j :: 0 <= j < i ==> !RemoveMatch(c[j], c[i])
    requires !c[i].item.isBundle
    ensures c[i].quantity > 1 ==> Minus(c, i) == Some(c[i := c[i].(quantity := c[i].quantity - 1)])
    ensures c[i].quantity == 1 ==> Minus(c, i) == Some(c[..i] + c[i + 1..])
  {
    assert RemoveMatch(c[i], c[i]);
  }

  /** When no earlier line loosely matches, - on a bundle line removes it. */
  lemma MinusOnBundle(c: Cart, i: nat)
    requires i < |c| && forall j :: 0 <= j < i ==> !RemoveMatch(c[j], c[i])
    requires c[i].item.isBundle
    ensures Minus(c, i) == Some(c[..i] + c[i + 1..])
  {
    assert RemoveMatch(c[i], c[i]);
  }

  /** - on a line acts on an earlier line that differs only in its
      personalisation message, leaving the pressed line as it was. */
  lemma MinusHitsEarlierLine()
    ensures exists c: Cart, i: nat ::
      (i < |c| && UniqueAddKeys(c) && Minus(c, i).Some?
       && |Minus(c, i).value| == |c| && Minus(c, i).value[i] == c[i])
  {
    var base := Item("Mug", 1000, [], [], 0, "", [], false, [], []);
    var a := CartItem(base.(options := [(CustomMsgKey, ["Ann"])]), 2);
    var b := CartItem(base.(options := [(CustomMsgKey, ["Bob"])]), 3);
    var c := [a, b];
    assert a.item.options[0] != b.item.options[0];
    assert UniqueAddKeys(c);
    assert RemoveMatch(a, b);
    assert FirstRemoveMatch(c, b) == 0;
    var r := Minus(c, 1).value;
    assert r == [CartItem(a.item.(options := b.item.options), 1), b];
  }

  /** handleCheckout: the cart it posts, or None when it returns early. */
  function CheckoutRequest(cart: Option<Cart>): (body: Option<Cart>)
    ensures body.None? <==> cart.None? || cart.value == []
    ensures body.Some? ==> body.value == cart.value
  {
    if cart.None? || |cart.value| == 0 then None else cart
  }

  /** The number on the cart icon, or None when no badge is drawn. */
  function Badge(cart: Option<Cart>): (n: Option<nat>)
    ensures n.Some? <==> cart.Some? && |cart.value| > 0
    ensures n.Some? ==> n.value == |cart.value| && n.value > 0
  {
    if cart.Some? && |cart.value| > 0 then Some(|cart.value|) else None
  }

  /** Checkout posts exactly when a badge is drawn, and the badge counts the
      lines posted; + keeps the count and - lowers it by at most one. */
  lemma BadgeFollowsCart(c: Cart, i: nat)
    requires i < |c|
    ensures CheckoutRequest(Some(c)).Some? <==> Badge(Some(c)).Some?
    ensures Badge(Some(c)) == Some(|CheckoutRequest(Some(c)).value|)
    ensures Badge(Some(Plus(c, i))) == Badge(Some(c))
    ensures Badge(Minus(c, i)).Some? ==> Badge(Minus(c, i)).value + 1 >= Badge(Some(c)).value
    ensures Badge(Minus(c, i)).None? <==> |c| == 1 && |Minus(c, i).value| == 0
  {
  }
}

=== FILE: drawer.dfy ===
/** The navigation drawer: the open/close toggle and the product search with
    its four suggestions. */
module Drawer {
  import opened Text
  import opened Interfaces
  import opened Lists

  /** The number of suggestions the search shows. */
  const MaxResults: nat := 4

  predicate NameStartsWith(item: Item, q: string) { StartsWith(Lower(item.name), q) }

  predicate NameIncludes(item: Item, q: string) { Includes(Lower(item.name), q) }

  /** The products whose lower-cased name starts with q, in inventory order,
      each as often as the inventory lists it. */
  function PrefixMatches(inventory: seq<Item>, q: string): (r: seq<Item>)
    ensures Subsequence(r, inventory)
    ensures forall x :: multiset(r)[x] == if NameStartsWith(x, q) then multiset(inventory)[x] else 0
  {
    FilterSubsequence(inventory, (item: Item) => NameStartsWith(item, q));
    FilterCount(inventory, (item: Item) => NameStartsWith(item, q));
    Filter(inventory, (item: Item) => NameStartsWith(item, q))
  }

  /** The products whose lower-cased name contains q, in inventory order,
      each as often as the inventory lists it. */
  function ContainsMatches(inventory: seq<Item>, q: string): (r: seq<Item>)
    ensures Subsequence(r, inventory)
    ensures forall x :: multiset(r)[x] == if NameIncludes(x, q) then multiset(inventory)[x] else 0
  {
    FilterSubsequence(inventory, (item: Item) => NameIncludes(item, q));
    FilterCount(inventory, (item: Item) => NameIncludes(item, q));
    Filter(inventory, (item: Item) => NameIncludes(item, q))
  }

  /** handleSearch: without a term the first four products; otherwise the
      first four whose lower-cased name starts with the lower-cased term, or,
      when none does, the first four whose name contains it. */
  function Search(inventory: seq<Item>, term: string): (r: seq<Item>)
    ensures |r| <= MaxResults
    ensures Subsequence(r, inventory)
    ensures term == [] ==> r == Take(inventory, MaxResults)
    ensures term != [] && PrefixMatches(inventory, Lower(term)) != [] ==>
      r == Take(PrefixMatches(inventory, Lower(term)), MaxResults)
    ensures term != [] && PrefixMatches(inventory, Lower(term)) == [] ==>
      r == Take(ContainsMatches(inventory, Lower(term)), MaxResults)
  {
    if |term| == 0 then
      SubsequenceReflexive(inventory);
      PrefixSubsequence(inventory, inventory, |Take(inventory, MaxResults)|);
      Take(inventory, MaxResults)
    else
      var q := Lower(term);
      var starts := PrefixMatches(inventory, q);
      if |starts| > 0 then
        PrefixSubsequence(starts, inventory, |Take(starts, MaxResults)|);
        Take(starts, MaxResults)
      else
        var includes := ContainsMatches(inventory, q);
        PrefixSubsequence(includes, inventory, |Take(includes, MaxResults)|);
        Take(includes, MaxResults)
  }

  /** The suggestions for a term are the first four products of the list the
      term selects, in that list's order, or all of them when there are fewer. */
  lemma SearchShowsFirstMatches(inventory: seq<Item>, term: string)
    requires term != []
    ensures var q := Lower(term);
      var m := if PrefixMatches(inventory, q) != [] then PrefixMatches(inventory, q) else ContainsMatches(inventory, q);
      && |Search(inventory, term)| == (if |m| < MaxResults then |m| else MaxResults)
      && forall k :: 0 <= k < |Search(inventory, term)| ==> Search(inventory, term)[k] == m[k]
  {
  }

  /** A product whose name starts with the term always wins: then every
      suggestion starts with it, and when fewer than four are shown none of
      those products is missing. */
  lemma SearchPrefersPrefix(inventory: seq<Item>, term: string, item: Item)
    requires term != [] && item in inventory && NameStartsWith(item, Lower(term))
    ensures forall x :: x in Search(inventory, term) ==> NameStartsWith(x, Lower(term))
    ensures |Search(inventory, term)| < MaxResults ==> item in Search(inventory, term)
    ensures |Search(inventory, term)| >= 1
  {
    var q := Lower(term);
    var starts := PrefixMatches(inventory, q);
    assert item in starts;
    var r := Search(inventory, term);
    assert r == Take(starts, MaxResults);
    forall x | x in r ensures NameStartsWith(x, q) {
      assert x in starts;
    }
  }

  /** With no name starting with the term the suggestions are the products
      whose name contains it, and a short list misses none of them. */
  lemma SearchFallsBackToContains(inventory: seq<Item>, term: string)
    requires term != [] && forall x :: x in inventory ==> !NameStartsWith(x, Lower(term))
    ensures forall x :: x in Search(inventory, term) ==> x in inventory && NameIncludes(x, Lower(term))
    ensures |Search(inventory, term)| < MaxResults ==>
      forall x :: x in inventory && NameIncludes(x, Lower(term)) ==> x in Search(inventory, term)
  {
    var q := Lower(term);
    var starts := PrefixMatches(inventory, q);
    var includes := ContainsMatches(inventory, q);
    assert starts == [] by {
      forall i | 0 <= i < |inventory| ensures !NameStartsWith(inventory[i], q) {
        assert inventory[i] in inventory;
      }
    }
    var r := Search(inventory, term);
    assert r == Take(includes, MaxResults);
    forall x | x in r ensures x in inventory && NameIncludes(x, q) {
      assert x in includes;
    }
  }

  /** Every suggestion for a term contains the term in its name. */
  lemma SuggestionsContainTerm(inventory: seq<Item>, term: string)
    requires term != []
    ensures forall x :: x in Search(inventory, term) ==> NameIncludes(x, Lower(term))
  {
    var q := Lower(term);
    var starts := PrefixMatches(inventory, q);
    var includes := ContainsMatches(inventory, q);
    var r := Search(inventory, term);
    forall x | x in r ensures NameIncludes(x, q) {
      if |starts| > 0 {
        assert r == Take(starts, MaxResults);
        assert x in starts;
        StartsWithIncludes(Lower(x.name), q);
      } else {
        assert r == Take(includes, MaxResults);
        assert x in includes;
      }
    }
  }

  /** The suggestions shown once the inventory has loaded; none while it is
      still being fetched. */
  function LoadedSuggestions(fetching: bool, shown: seq<Item>, inventory: seq<Item>): (r: seq<Item>)
    ensures !fetching ==> |r| == (if |inventory| < MaxResults then |inventory| else MaxResults)
    ensures !fetching ==> forall k :: 0 <= k < |r| ==> r[k] == inventory[k]
    ensures fetching ==> r == shown
  {
    if fetching then shown else inventory[..if |inventory| < MaxResults then |inventory| else MaxResults]
  }

  /** Once loaded, the suggestions are what an emptied search box shows. */
  lemma LoadedIsEmptySearch(shown: seq<Item>, inventory: seq<Item>)
    ensures LoadedSuggestions(false, shown, inventory) == Search(inventory, "")
  {
    var r := LoadedSuggestions(false, shown, inventory);
    var t := Search(inventory, "");
    assert |r| == |t|;
    assert forall k :: 0 <= k < |r| ==> r[k] == t[k];
  }

  /** handleDrawer: the drawer toggles, except that on a desktop an open
      drawer stays open. */
  function ToggleDrawer(isDesktop: bool, isOpen: bool): (open: bool)
    ensures isDesktop && isOpen ==> open
    ensures !(isDesktop && isOpen) ==> open != isOpen
  {
    if isDesktop && isOpen then isOpen else !isOpen
  }

  function ToggleTimes(isDesktop: bool, isOpen: bool, n: nat): bool
    decreases n
  {
    if n == 0 then isOpen else ToggleTimes(isDesktop, ToggleDrawer(isDesktop, isOpen), n - 1)
  }

  /** On a desktop the drawer, once open, stays open; on a small screen an
      even number of presses leaves it as it was. */
  lemma {:induction false} TogglePresses(isDesktop: bool, isOpen: bool, n: nat)
    ensures isDesktop && isOpen ==> ToggleTimes(isDesktop, isOpen, n)
    ensures !isDesktop ==> ToggleTimes(isDesktop, isOpen, n) == (if n % 2 == 0 then isOpen else !isOpen)
    decreases n
  {
    if n > 0 {
      TogglePresses(isDesktop, ToggleDrawer(isDesktop, isOpen), n - 1);
    }
  }
}

=== FILE: home.dfy ===
/** The home page: the featured-products carousel, the shortened product
    names under it, and the reaction to the query string the payment and
    custom-order links bring back. */
module Home {
  import opened Text
  import opened Interfaces
  import CartContext

  // ---------------------------------------------------------------- carousel

  /** The screen width class and the number of steps between the first and
      last visible product. */
  function WindowSize(isDesktop: bool): nat {
    if isDesktop then 2 else 1
  }

  /** The carousel's leftIndex and rightIndex. */
  datatype Window = Window(left: nat, right: nat)

  /** After a reset or any move the window spans exactly WindowSize. */
  predicate Spans(w: Window, isDesktop: bool) {
    w.right == w.left + WindowSize(isDesktop)
  }

  /** The reset effect run whenever the width class changes. */
  function Reset(isDesktop: bool): (w: Window)
    ensures Spans(w, isDesktop) && w.left == 0
  {
    Window(0, WindowSize(isDesktop))
  }

  /** handleMoveLeft. */
  function MoveLeft(w: Window, isDesktop: bool): (w': Window)
    ensures w.left > 0 ==> Spans(w', isDesktop) && w'.left == w.left - 1
    ensures w.left == 0 ==> w' == w
  {
    if w.left > 0 then
      var l := w.left - 1;
      Window(l, l + WindowSize(isDesktop))
    else w
  }

  /** handleMoveRight. */
  function MoveRight(w: Window, isDesktop: bool, count: nat): (w': Window)
    ensures w' == w || (Spans(w', isDesktop) && w'.left == w.left + 1 && w'.right <= count)
  {
    if w.right + 1 < count then
      var l := w.left + 1;
      var r := l + WindowSize(isDesktop);
      if r <= count then Window(l, r) else w
    else w
  }

  /** Array.prototype.slice(start, end) for non-negative bounds: the
      elements from start up to end, clipped to the array, never more than
      end - start of them. */
  function Slice<T>(s: seq<T>, start: nat, end: nat): (r: seq<T>)
    ensures start <= end <= |s| ==> r == s[start..end]
    ensures |r| <= |s|
    ensures end <= start ==> r == []
    ensures start <= end ==> |r| <= end - start
    ensures forall k :: 0 <= k < |r| ==> start + k < |s| && r[k] == s[start + k]
  {
    var a := if start < |s| then start else |s|;
    var b := if end < |s| then end else |s|;
    if a <= b then s[a..b] else []
  }

  /** The products on screen: items leftIndex to rightIndex, or fewer when
      the list ends first. */
  function Visible<T>(items: seq<T>, w: Window): (r: seq<T>)
    ensures w.left <= w.right + 1 ==> |r| <= w.right + 1 - w.left
    ensures forall k :: 0 <= k < |r| ==> w.left + k < |items| && r[k] == items[w.left + k]
  {
    Slice(items, w.left, w.right + 1)
  }

  /** After a reset or any move the carousel shows at most WindowSize + 1
      products, whatever the length of the list. */
  lemma VisibleAtMostWindow<T>(items: seq<T>, w: Window, isDesktop: bool)
    requires Spans(w, isDesktop)
    ensures |Visible(items, w)| <= WindowSize(isDesktop) + 1
  {
  }

  /** A window that fits shows WindowSize + 1 products, and moving right keeps
      it fitting: it moves exactly when there is a product past its right end. */
  lemma MoveRightWhenRoom<T>(items: seq<T>, w: Window, isDesktop: bool)
    requires Spans(w, isDesktop) && w.right < |items|
    ensures |Visible(items, w)| == WindowSize(isDesktop) + 1
    ensures var w' := MoveRight(w, isDesktop, |items|);
      && (w' != w <==> w.right + 1 < |items|)
      && w'.right < |items|
      && (w' != w ==> Visible(items, w') == Visible(items, w)[1..] + [items[w.right + 1]])
  {
  }

  /** Moving right and then left comes back to the same window. */
  lemma RightThenLeft(w: Window, isDesktop: bool, count: nat)
    requires Spans(w, isDesktop)
    requires MoveRight(w, isDesktop, count) != w
    ensures MoveLeft(MoveRight(w, isDesktop, count), isDesktop) == w
  {
  }

  /** Moving left and then right comes back to the same window, as long as
      the window fitted. */
  lemma LeftThenRight(w: Window, isDesktop: bool, count: nat)
    requires Spans(w, isDesktop) && w.right < count && w.left > 0
    ensures MoveRight(MoveLeft(w, isDesktop), isDesktop, count) == w
  {
  }

  datatype Move = Left | Right

  function MoveAll(w: Window, isDesktop: bool, count: nat, moves: seq<Move>): Window
    decreases |moves|
  {
    if moves == [] then w
    else
      var w' := if moves[0] == Left then MoveLeft(w, isDesktop) else MoveRight(w, isDesktop, count);
      MoveAll(w', isDesktop, count, moves[1..])
  }

  /** From a reset on a list that fills the window, any sequence of presses
      keeps the window spanning WindowSize and inside the list, so the
      carousel always shows WindowSize + 1 products. */
  lemma {:induction false} MovesStayInside(w: Window, isDesktop: bool, count: nat, moves: seq<Move>)
    requires Spans(w, isDesktop) && w.right < count
    ensures var w' := MoveAll(w, isDesktop, count, moves);
      Spans(w', isDesktop) && w'.right < count
    decreases |moves|
  {
    if moves != [] {
      var w' := if moves[0] == Left then MoveLeft(w, isDesktop) else MoveRight(w, isDesktop, count);
      MovesStayInside(w', isDesktop, count, moves[1..]);
    }
  }

  // ---------------------------------------------------------------- names

  function NameLimit(isDesktop: bool): nat {
    if isDesktop then 20 else 8
  }

  /** A featured product's caption: the name, cut to the limit with "..."
      appended when it is longer. */
  function Caption(name: string, isDesktop: bool): (r: string)
    ensures |name| <= NameLimit(isDesktop) ==> r == name
    ensures |name| > NameLimit(isDesktop) ==>
      |r| == NameLimit(isDesktop) + 3 && r[..NameLimit(isDesktop)] == name[..NameLimit(isDesktop)]
      && r[NameLimit(isDesktop)..] == "..."
  {
    var n := NameLimit(isDesktop);
    if |name| > n then name[..n] + "..." else name
  }

  /** A caption is never longer than the limit plus the three dots, always
      begins with as much of the name as fits, and captioning a caption
      changes nothing. */
  lemma CaptionShape(name: string, isDesktop: bool)
    ensures var n := NameLimit(isDesktop); var r := Caption(name, isDesktop);
      && |r| <= n + 3
      && (|name| <= n ==> |r| == |name|)
      && r[..if |name| < n then |name| else n] == name[..if |name| < n then |name| else n]
    ensures Caption(Caption(name, isDesktop), isDesktop) == Caption(name, isDesktop)
  {
    var n := NameLimit(isDesktop);
    var r := Caption(name, isDesktop);
    if |name| > n {
      assert |r| > n;
      assert Caption(r, isDesktop) == r[..n] + "...";
    }
  }

  // ---------------------------------------------------------------- query string

  datatype LandingAction = ScrollToCustom | ClearCart | Stay

  /** The effect on the query string: `customOrder=true` scrolls to the
      custom-order section when it is on the page; otherwise
      `session_id=true` clears the cart. */
  function Landing(customOrder: Option<string>, sessionId: Option<string>, sectionShown: bool): (a: LandingAction)
    ensures a == ScrollToCustom <==> customOrder == Some("true") && sectionShown
    ensures a == ClearCart <==> sessionId == Some("true") && !(customOrder == Some("true") && sectionShown)
  {
    if customOrder == Some("true") && sectionShown then ScrollToCustom
    else if sessionId == Some("true") then ClearCart
    else Stay
  }

  /** The custom-order link wins over a payment return when the section is
      on the page; without the exact value "true" in either parameter the
      page stays; a payment return alone always clears. */
  lemma LandingPrecedence(customOrder: Option<string>, sessionId: Option<string>, sectionShown: bool)
    ensures Landing(Some("true"), sessionId, true) == ScrollToCustom
    ensures customOrder != Some("true") && sessionId != Some("true") ==> Landing(customOrder, sessionId, sectionShown) == Stay
    ensures customOrder != Some("true") ==> Landing(customOrder, sessionId, sectionShown) == Landing(None, sessionId, false)
    ensures Landing(customOrder, Some("true"), sectionShown) != Stay
  {
  }

  /** Coming back from a successful payment empties a signed-in user's cart
      once the backend has stored the empty cart. */
  lemma PaymentReturnEmptiesCart(cart: Option<Cart>, user: User, sectionShown: bool)
    ensures Landing(None, Some("true"), sectionShown) == ClearCart
    ensures CartContext.ResetCart(cart, Some(user), true) == Some([])
  {
  }
}

=== FILE: interfaces.dfy ===
/** The records the storefront exchanges with its backend: catalogue items,
    cart lines, users and orders. Prices are integer cents; the client only
    copies them. */
module Interfaces {
  import opened Text
  import JsObject

  type Price = int

  /** An item's option choices, `Record<string, string[]>`, in enumeration order. */
  type Options = JsObject.Record<seq<string>>

  /** The option key that carries a personalisation message. */
  const CustomMsgKey: string := "customMSG"

  /** The category that marks a personalised product. */
  const CustomOrderCategory: string := "Custom Order"

  datatype Review = Review(fullName: string, stars: int, description: string, photos: seq<string>)

  /** A photo slot; the empty string stands for an empty slot. */
  datatype Photo = Photo(photo: string, tag: string)

  datatype Item = Item(
    name: string,
    price: Price,
    category: seq<string>,
    options: Options,
    quantity: int,
    description: string,
    photos: seq<Photo>,
    isBundle: bool,
    priceOptions: JsObject.Record<Price>,
    reviews: seq<Review>)

  /** One cart line. */
  datatype CartItem = CartItem(item: Item, quantity: int)

  type Cart = seq<CartItem>

  datatype ItemInvoice = ItemInvoice(description: string, amount: int, quantity: int)

  datatype Bill = Bill(
    fullName: string, address: string, country: string, province: string,
    city: string, postalCode: string, email: string, phone: Option<string>)

  /** An order as it arrives over JSON: the optional `_id` and
      `trackingNumber` are None when absent or null, and `date` is the
      transported text. */
  datatype Order = Order(
    id: Option<string>,
    items: seq<ItemInvoice>,
    totalPrice: int,
    billingInfo: Bill,
    status: string,
    trackingNumber: Option<string>,
    date: string,
    local: bool)

  datatype User = User(
    email: string,
    password: string,
    billingInfo: Bill,
    orderHistory: seq<Order>,
    cart: Cart,
    role: string)

  predicate IsCustomOrder(item: Item) {
    CustomOrderCategory in item.category
  }
}

=== FILE: inventory.dfy ===
/** The inventory admin page: the category list and filter, the photo slots
    of the add and edit forms, the category text field, and the bundle
    editor. */
module Inventory {
  import opened Text
  import opened Interfaces
  import opened Lists
  import JsObject

  // ---------------------------------------------------------------- categories

  /** Every category of every product, in inventory order, repeats included. */
  function AllCategories(inventory: seq<Item>): seq<string>
    decreases |inventory|
  {
    if inventory == [] then []
    else
      var n := |inventory| - 1;
      AllCategories(inventory[..n]) + inventory[n].category
  }

  /** The distinct elements of s in order of first occurrence: what a JS Set
      built by adding s's elements in turn enumerates. */
  function Dedup(s: seq<string>): (r: seq<string>)
    ensures forall c :: c in r <==> c in s
    decreases |s|
  {
    if s == [] then []
    else
      var n := |s| - 1;
      var d := Dedup(s[..n]);
      assert s == s[..n] + [s[n]];
      if s[n] in d then d else d + [s[n]]
  }

  /** A Set enumerates each element once. */
  lemma {:induction false} DedupDistinct(s: seq<string>)
    ensures forall i, j :: 0 <= i < j < |Dedup(s)| ==> Dedup(s)[i] != Dedup(s)[j]
    decreases |s|
  {
    if s != [] {
      var n := |s| - 1;
      DedupDistinct(s[..n]);
    }
  }

  /** Adding one more element to a Set appends it exactly when it is new. */
  lemma DedupSnoc(s: seq<string>, c: string)
    ensures Dedup(s + [c]) == if c in Dedup(s) then Dedup(s) else Dedup(s) + [c]
  {
    assert (s + [c])[..|s|] == s;
  }

  lemma AllCategoriesStep(inventory: seq<Item>, i: nat)
    requires i < |inventory|
    ensures AllCategories(inventory[..i + 1]) == AllCategories(inventory[..i]) + inventory[i].category
  {
    assert inventory[..i + 1][..i] == inventory[..i];
  }

  /** Adding one product's categories to the Set in turn. */
  method AddCategories(cats: seq<string>, ghost seen: seq<string>, cs: seq<string>) returns (r: seq<string>)
    requires cats == Dedup(seen)
    ensures r == Dedup(seen + cs)
  {
    r := cats;
    var j := 0;
    assert seen + cs[..0] == seen;
    while j < |cs|
      invariant 0 <= j <= |cs|
      invariant r == Dedup(seen + cs[..j])
    {
      DedupSnoc(seen + cs[..j], cs[j]);
      assert seen + cs[..j + 1] == (seen + cs[..j]) + [cs[j]];
      if cs[j] !in r {
        r := r + [cs[j]];
      }
      j := j + 1;
    }
    assert cs[..j] == cs;
  }

  /** The effect that rebuilds the category set from the inventory. */
  method CollectCategories(inventory: seq<Item>) returns (cats: seq<string>)
    ensures cats == Dedup(AllCategories(inventory))
  {
    cats := [];
    var i := 0;
    while i < |inventory|
      invariant 0 <= i <= |inventory|
      invariant cats == Dedup(AllCategories(inventory[..i]))
    {
      AllCategoriesStep(inventory, i);
      cats := AddCategories(cats, AllCategories(inventory[..i]), inventory[i].category);
      i := i + 1;
    }
    assert inventory[..i] == inventory;
  }

  /** A category in the list belongs to some product. */
  lemma {:induction false} CategoryHasOwner(inventory: seq<Item>, c: string)
    requires c in AllCategories(inventory)
    ensures exists k :: 0 <= k < |inventory| && c in inventory[k].category
    decreases |inventory|
  {
    var n := |inventory| - 1;
    if c in inventory[n].category {
    } else {
      CategoryHasOwner(inventory[..n], c);
      var k :| 0 <= k < n && c in inventory[..n][k].category;
      assert inventory[k] == inventory[..n][k];
    }
  }

  /** The products listed under the chosen filter. */
  function ShownItems(inventory: seq<Item>, filter: string): (r: seq<Item>)
    ensures filter == "All" ==> r == inventory
    ensures filter != "All" ==> forall x :: x in r <==> x in inventory && filter in x.category
    ensures filter != "All" ==> forall x :: multiset(r)[x] == if filter in x.category then multiset(inventory)[x] else 0
    ensures Subsequence(r, inventory)
  {
    if filter == "All" then
      SubsequenceReflexive(inventory);
      inventory
    else
      FilterSubsequence(inventory, (x: Item) => filter in x.category);
      FilterCount(inventory, (x: Item) => filter in x.category);
      Filter(inventory, (x: Item) => filter in x.category)
  }

  /** Every category the filter offers lists at least one product. */
  lemma OfferedCategoryNotEmpty(inventory: seq<Item>, c: string)
    requires c in Dedup(AllCategories(inventory))
    ensures ShownItems(inventory, c) != []
  {
    CategoryHasOwner(inventory, c);
    var k :| 0 <= k < |inventory| && c in inventory[k].category;
    assert inventory[k] in inventory;
  }

  // ---------------------------------------------------------------- photo slots

  const EmptyPhoto: Photo := Photo("", "")

  predicate IsEmptySlot(p: Photo) { |p.photo| == 0 }

  predicate HasEmptySlot(ps: seq<Photo>) {
    exists i :: 0 <= i < |ps| && IsEmptySlot(ps[i])
  }

  /** Appends an empty slot when none is left. */
  function KeepEmptySlot(ps: seq<Photo>): (r: seq<Photo>)
    ensures HasEmptySlot(r)
    ensures HasEmptySlot(ps) ==> r == ps
    ensures !HasEmptySlot(ps) ==> r == ps + [EmptyPhoto]
  {
    if HasEmptySlot(ps) then ps
    else
      assert IsEmptySlot((ps + [EmptyPhoto])[|ps|]);
      ps + [EmptyPhoto]
  }

  /** The edit form's slots: the product's photos and one empty slot. */
  function EditSlots(photos: seq<Photo>): (r: seq<Photo>)
    ensures HasEmptySlot(r) && |r| == |photos| + 1 && r[..|photos|] == photos
  {
    var r := photos + [EmptyPhoto];
    assert IsEmptySlot(r[|photos|]);
    r
  }

  /** The add form starts with a single empty slot. */
  const AddSlots: seq<Photo> := [EmptyPhoto]

  /** handlePhotoChange: the slot takes the photo, and an empty slot is
      appended only when none is left. */
  function PhotoChange(ps: seq<Photo>, index: nat, photo: Photo): (r: seq<Photo>)
    requires index < |ps|
    ensures HasEmptySlot(r)
    ensures r == ps[index := photo] || r == ps[index := photo] + [EmptyPhoto]
    ensures |ps| <= |r| <= |ps| + 1
  {
    KeepEmptySlot(ps[index := photo])
  }

  /** handlePhotoRemove: the only slot is cleared, otherwise the slot goes. */
  function PhotoRemove(ps: seq<Photo>, index: nat): (r: seq<Photo>)
    requires index < |ps|
    ensures HasEmptySlot(r)
    ensures var q := if |ps| == 1 then [EmptyPhoto] else ps[..index] + ps[index + 1..];
      r == q || r == q + [EmptyPhoto]
    ensures |ps| == 1 ==> r == [EmptyPhoto]
    ensures |ps| > 1 ==> r[..|ps| - 1] == ps[..index] + ps[index + 1..]
  {
    var q := if |ps| == 1 then ps[index := EmptyPhoto] else ps[..index] + ps[index + 1..];
    assert |ps| == 1 ==> q == [EmptyPhoto] && IsEmptySlot(q[0]);
    KeepEmptySlot(q)
  }

  /** The photos the product is saved with: the slots that hold one. */
  function SavedPhotos(ps: seq<Photo>): seq<Photo> {
    Filter(ps, (p: Photo) => !IsEmptySlot(p))
  }

  lemma SavedIgnoresSpareSlot(ps: seq<Photo>)
    ensures SavedPhotos(KeepEmptySlot(ps)) == SavedPhotos(ps)
    ensures SavedPhotos(EditSlots(ps)) == SavedPhotos(ps)
  {
    FilterConcat(ps, [EmptyPhoto], (p: Photo) => !IsEmptySlot(p));
  }

  /** Replacing slot i replaces that slot's contribution to the saved photos
      and keeps the others in order. */
  lemma SavedAfterChange(ps: seq<Photo>, index: nat, photo: Photo)
    requires index < |ps|
    ensures SavedPhotos(PhotoChange(ps, index, photo))
      == SavedPhotos(ps[..index]) + SavedPhotos([photo]) + SavedPhotos(ps[index + 1..])
  {
    var q := ps[index := photo];
    assert PhotoChange(ps, index, photo) == KeepEmptySlot(q);
    SavedIgnoresSpareSlot(q);
    assert q[..index] == ps[..index] && q[index] == photo && q[index + 1..] == ps[index + 1..];
    SavedSplit(q, index);
  }

  /** The saved photos of a list are those of the slots before i, of slot i
      and of the slots after it. */
  lemma SavedSplit(ps: seq<Photo>, index: nat)
    requires index < |ps|
    ensures SavedPhotos(ps) == SavedPhotos(ps[..index]) + SavedPhotos([ps[index]]) + SavedPhotos(ps[index + 1..])
  {
    var f := (p: Photo) => !IsEmptySlot(p);
    assert ps == ps[..index] + [ps[index]] + ps[index + 1..];
    FilterConcat(ps[..index] + [ps[index]], ps[index + 1..], f);
    FilterConcat(ps[..index], [ps[index]], f);
  }

  /** Removing slot i drops exactly that slot's photo from what is saved. */
  lemma SavedAfterRemove(ps: seq<Photo>, index: nat)
    requires index < |ps|
    ensures |ps| > 1 ==> SavedPhotos(PhotoRemove(ps, index)) == SavedPhotos(ps[..index]) + SavedPhotos(ps[index + 1..])
    ensures |ps| > 1 ==> SavedPhotos(ps) == SavedPhotos(ps[..index]) + SavedPhotos([ps[index]]) + SavedPhotos(ps[index + 1..])
    ensures |ps| == 1 ==> SavedPhotos(PhotoRemove(ps, index)) == []
  {
    if |ps| == 1 {
      assert PhotoRemove(ps, index) == [EmptyPhoto];
      assert KeepEmptySlot([]) == [EmptyPhoto];
      SavedIgnoresSpareSlot([]);
    } else {
      var q := ps[..index] + ps[index + 1..];
      assert PhotoRemove(ps, index) == KeepEmptySlot(q);
      SavedIgnoresSpareSlot(q);
      FilterConcat(ps[..index], ps[index + 1..], (p: Photo) => !IsEmptySlot(p));
      SavedSplit(ps, index);
    }
  }

  // ---------------------------------------------------------------- category field

  /** The category field shows the array as JavaScript prints it, joined with
      commas, and an edit splits the text at the commas. */
  function ShownCategories(categories: seq<string>): string {
    Join(categories, ',')
  }

  function CategoriesFromInput(value: string): (r: seq<string>)
    ensures |r| >= 1
    ensures Join(r, ',') == value
  {
    JoinSplit(value, ',');
    Split(value, ',')
  }

  /** Reading the shown text back gives the categories again, unless there
      were none or one of them holds a comma. */
  lemma CategoriesRoundTrip(categories: seq<string>)
    requires |categories| >= 1 && forall k :: 0 <= k < |categories| ==> ',' !in categories[k]
    ensures CategoriesFromInput(ShownCategories(categories)) == categories
  {
    SplitJoin(categories, ',');
  }

  /** A product without categories reads back as one blank category. */
  lemma NoCategoriesReadBackBlank()
    ensures CategoriesFromInput(ShownCategories([])) == [""]
  {
  }

  // ---------------------------------------------------------------- bundle editor

  /** The bundle editor: the bundles (size text to price), the selected size,
      the draft size typed in, the price field and whether the price is set. */
  datatype BundleEditor = BundleEditor(
    bundles: JsObject.Record<Price>,
    selected: string,
    draft: string,
    priceInput: string,
    locked: bool)

  /** The selection is empty or names a bundle. */
  predicate SelectionValid(e: BundleEditor) {
    e.selected == "" || e.selected in JsObject.Keys(e.bundles)
  }

  /** The price field and lock follow the selected bundle's price: a
      selected size is locked exactly when its price is not 0. */
  predicate Consistent(e: BundleEditor) {
    && SelectionValid(e)
    && (e.selected != "" ==> (e.locked <==> JsObject.Get(e.bundles, e.selected) != Some(0)))
  }

  /** The effect run after the selection or the bundles change: a selected
      size that has a price shows it in the field ("" for 0) and is locked
      when the price is not 0. */
  function Settle(e: BundleEditor): (e': BundleEditor)
    ensures e'.bundles == e.bundles && e'.selected == e.selected && e'.draft == e.draft
    ensures e.selected == "" || JsObject.Get(e.bundles, e.selected).None? ==> e' == e
    ensures e.selected != "" && JsObject.Get(e.bundles, e.selected).Some? ==>
      var price := JsObject.Get(e.bundles, e.selected).value;
      && e'.locked == (price != 0)
      && e'.priceInput == (if price == 0 then "" else IntToString(price))
  {
    if e.selected != "" && JsObject.Get(e.bundles, e.selected).Some? then
      var price := JsObject.Get(e.bundles, e.selected).value;
      e.(priceInput := if price == 0 then "" else IntToString(price), locked := price != 0)
    else e
  }

  /** handleAddBundle: a blank draft is ignored; otherwise the untrimmed
      draft becomes a bundle priced 0, is selected, and the field clears. */
  function AddBundle(e: BundleEditor): (e': BundleEditor)
    ensures Trim(e.draft) == "" ==> e' == e
    ensures Trim(e.draft) != "" ==> e'.selected == e.draft && e'.draft == ""
  {
    if Trim(e.draft) == "" then e
    else Settle(BundleEditor(JsObject.Put(e.bundles, e.draft, 0), e.draft, "", "", false))
  }

  /** Adding a size stores it at price 0, even over a price it already had,
      touches no other size, and leaves the new size selected and unlocked. */
  lemma AddBundleSpec(e: BundleEditor)
    requires JsObject.WellFormed(e.bundles) && Trim(e.draft) != ""
    ensures var e' := AddBundle(e);
      && JsObject.WellFormed(e'.bundles) && Consistent(e')
      && JsObject.Get(e'.bundles, e.draft) == Some(0)
      && !e'.locked && e'.priceInput == ""
      && (forall k :: k != e.draft ==> JsObject.Get(e'.bundles, k) == JsObject.Get(e.bundles, k))
  {
    JsObject.PutSpec(e.bundles, e.draft, 0);
  }

  /** The first key of an object, or "" when it has none or its first key is
      empty (`Object.keys(o)[0] || ""`). */
  function FirstKeyOrBlank(r: JsObject.Record<Price>): string {
    if |r| > 0 then r[0].0 else ""
  }

  /** removeFromBundle: the size goes, every other size keeps its price,
      and the selection moves to the first remaining size (or "" when none
      is left), whichever size was removed. */
  function RemoveBundle(e: BundleEditor, size: string): (e': BundleEditor)
    requires JsObject.WellFormed(e.bundles)
    ensures e'.draft == e.draft
    ensures JsObject.WellFormed(e'.bundles) && Consistent(e')
    ensures size !in JsObject.Keys(e'.bundles)
    ensures forall k :: k != size ==> JsObject.Get(e'.bundles, k) == JsObject.Get(e.bundles, k)
    ensures e'.bundles != [] ==> e'.selected == JsObject.Keys(e'.bundles)[0]
    ensures e'.bundles == [] ==> e'.selected == ""
  {
    var updated := JsObject.Delete(e.bundles, size);
    JsObject.DeleteSpec(e.bundles, size);
    Settle(e.(bundles := updated, selected := FirstKeyOrBlank(updated)))
  }

  /** Clicking a size selects it. Clicking the size already selected sets
      the selection to the value it has, which React ignores: the effect does
      not run and a price typed into the field stays there. Clicking another
      size shows that size's price and locks it unless the price is 0; a
      size named "" is falsy to the effect and leaves the field alone. */
  function SelectBundle(e: BundleEditor, size: string): (e': BundleEditor)
    requires size in JsObject.Keys(e.bundles)
    ensures e'.selected == size && e'.bundles == e.bundles && e'.draft == e.draft
    ensures size == e.selected ==> e' == e
    ensures size != e.selected && size == "" ==> e' == e.(selected := "")
    ensures size != e.selected && size != "" ==>
      var price := JsObject.Get(e.bundles, size).value;
      && e'.locked == (price != 0)
      && e'.priceInput == (if price == 0 then "" else IntToString(price))
  {
    if size == e.selected then e else Settle(e.(selected := size))
  }

  /** handleSetPrice with the parsed field: None when parseFloat gives NaN. */
  function SetPrice(e: BundleEditor, parsed: Option<Price>): (e': BundleEditor)
    ensures parsed.None? ==> e' == e
    ensures e'.selected == e.selected
  {
    if parsed.None? then e
    else Settle(e.(bundles := JsObject.Put(e.bundles, e.selected, parsed.value), locked := true))
  }

  /** handleRemovePrice: the selected size goes back to 0, the field clears
      and the size unlocks. */
  function RemovePrice(e: BundleEditor): (e': BundleEditor)
    requires JsObject.WellFormed(e.bundles)
    ensures e'.selected == e.selected && e'.draft == e.draft
    ensures e'.priceInput == "" && !e'.locked
    ensures JsObject.WellFormed(e'.bundles) && JsObject.Get(e'.bundles, e.selected) == Some(0)
    ensures forall k :: k != e.selected ==> JsObject.Get(e'.bundles, k) == JsObject.Get(e.bundles, k)
  {
    JsObject.PutSpec(e.bundles, e.selected, 0);
    Settle(e.(bundles := JsObject.Put(e.bundles, e.selected, 0), priceInput := "", locked := false))
  }

  /** Pricing the selected size changes that price only: the sizes and their
      order stay as they were, and the lock ends up set exactly when the
      new price is not 0 (a price of 0 leaves the size unlocked). */
  lemma PricingKeepsSizes(e: BundleEditor, parsed: Option<Price>)
    requires JsObject.WellFormed(e.bundles) && e.selected != "" && e.selected in JsObject.Keys(e.bundles)
    ensures JsObject.Keys(SetPrice(e, parsed).bundles) == JsObject.Keys(e.bundles)
    ensures JsObject.Keys(RemovePrice(e).bundles) == JsObject.Keys(e.bundles)
    ensures parsed.Some? ==> JsObject.Get(SetPrice(e, parsed).bundles, e.selected) == parsed
    ensures parsed.Some? ==> (SetPrice(e, parsed).locked <==> parsed.value != 0)
    ensures JsObject.Get(RemovePrice(e).bundles, e.selected) == Some(0) && !RemovePrice(e).locked
  {
    JsObject.PutSpec(e.bundles, e.selected, 0);
    if parsed.Some? {
      JsObject.PutSpec(e.bundles, e.selected, parsed.value);
    }
  }

  /** Every editor action keeps the bundles well formed and the editor
      consistent. */
  lemma EditorStaysConsistent(e: BundleEditor, size: string, parsed: Option<Price>)
    requires JsObject.WellFormed(e.bundles) && Consistent(e)
    ensures Consistent(AddBundle(e)) && Consistent(RemoveBundle(e, size))
    ensures size in JsObject.Keys(e.bundles) ==> Consistent(SelectBundle(e, size))
    ensures Consistent(SetPrice(e, parsed)) && Consistent(RemovePrice(e))
  {
    if Trim(e.draft) != "" {
      AddBundleSpec(e);
    }
    if e.selected != "" {
      PricingKeepsSizes(e, parsed);
    }
  }
}

=== FILE: item_page.dfy ===
/** The product page: the option pickers, the lookup of the product's line
    in the cart, and the buttons that add, remove and clear it. Each button
    handler returns the page's next state together with the calls it makes
    on the cart store, in order. */
module ItemPage {
  import opened Text
  import opened Interfaces
  import JsObject
  import opened CartContext
  import opened Bundles

  const PersonalizationError: string := "Personalization Box must be filled in!"

  // ---------------------------------------------------------------- option pickers

  /** What the pickers start on: the first value of every option except the
      personalisation message, skipping options without values; the object is
      built by writing each chosen key in the order the options enumerate. */
  function InitialOptions(o: Options): Options
    decreases |o|
  {
    if o == [] then []
    else
      var n := |o| - 1;
      var acc := InitialOptions(o[..n]);
      if o[n].0 != CustomMsgKey && |o[n].1| > 0 then JsObject.Put(acc, o[n].0, [o[n].1[0]]) else acc
  }

  /** The value InitialOptions picks for key k of o, if any. */
  function FirstChoice(o: Options, k: string): Option<seq<string>> {
    var vs := JsObject.Get(o, k);
    if k != CustomMsgKey && vs.Some? && |vs.value| > 0 then Some([vs.value[0]]) else None
  }

  /** The pickers start on the first value of each option that has one, never
      carry a message, and form a well-formed object. */
  lemma {:induction false} InitialOptionsSpec(o: Options)
    requires JsObject.WellFormed(o)
    ensures JsObject.WellFormed(InitialOptions(o))
    ensures forall k :: JsObject.Get(InitialOptions(o), k) == FirstChoice(o, k)
    decreases |o|
  {
    if o != [] {
      var n := |o| - 1;
      var p := o[..n];
      JsObject.PrefixWellFormed(o, n);
      InitialOptionsSpec(p);
      var acc := InitialOptions(p);
      if o[n].0 != CustomMsgKey && |o[n].1| > 0 {
        JsObject.PutSpec(acc, o[n].0, [o[n].1[0]]);
      }
      forall k ensures JsObject.Get(InitialOptions(o), k) == FirstChoice(o, k) {
        JsObject.GetLast(o, k);
      }
    }
  }

  /** handleOptionChange: the picker for key shows value. */
  function SelectOption(curr: Options, key: string, value: string): Options {
    JsObject.Put(curr, key, [value])
  }

  /** The pickers' effect on the page's item: their choices, plus the message
      the item already carried, if any. */
  function CarryMessage(curr: Options, prev: Options): Options {
    var m := JsObject.Get(prev, CustomMsgKey);
    if m.Some? then JsObject.Put(curr, CustomMsgKey, m.value) else curr
  }

  /** Choosing a value changes that option only and keeps the message. */
  lemma SelectKeepsMessage(curr: Options, prev: Options, key: string, value: string)
    requires JsObject.WellFormed(curr) && key != CustomMsgKey && CustomMsgKey !in JsObject.Keys(curr)
    ensures var o := CarryMessage(SelectOption(curr, key, value), prev);
      && JsObject.WellFormed(o)
      && JsObject.Get(o, key) == Some([value])
      && JsObject.Get(o, CustomMsgKey) == JsObject.Get(prev, CustomMsgKey)
      && forall k :: k != key && k != CustomMsgKey ==> JsObject.Get(o, k) == JsObject.Get(curr, k)
  {
    var s := SelectOption(curr, key, value);
    JsObject.PutSpec(curr, key, [value]);
    var m := JsObject.Get(prev, CustomMsgKey);
    if m.Some? {
      JsObject.PutSpec(s, CustomMsgKey, m.value);
    }
  }

  /** HandleCustomMsg's write: the message becomes the customMSG option. */
  function WithMessage(o: Options, msg: string): Options {
    JsObject.Put(o, CustomMsgKey, [msg])
  }

  /** Typing a message changes neither the options the message is ignored by
      nor any other option. */
  lemma MessageIsLoose(o: Options, msg: string)
    requires JsObject.WellFormed(o)
    ensures JsObject.WellFormed(WithMessage(o, msg))
    ensures JsObject.Get(WithMessage(o, msg), CustomMsgKey) == Some([msg])
    ensures LooseOptions(WithMessage(o, msg)) == LooseOptions(o)
  {
    var w := WithMessage(o, msg);
    JsObject.PutSpec(o, CustomMsgKey, [msg]);
    forall k | k != CustomMsgKey ensures k in JsObject.Keys(w) <==> k in JsObject.Keys(o) {
      assert JsObject.Get(w, k) == JsObject.Get(o, k);
    }
  }

  // ---------------------------------------------------------------- finding the line

  /** retrieveItem's test: same name, and for a personalised product the
      options apart from the message, otherwise the whole options object. */
  predicate RetrieveMatch(line: CartItem, item: Item, opts: Options) {
    && line.item.name == item.name
    && if IsCustomOrder(item) then LooseOptions(line.item.options) == LooseOptions(opts)
       else line.item.options == opts
  }

  function FirstRetrieveMatch(c: Cart, item: Item, opts: Options): (r: int)
    ensures -1 <= r < |c|
    ensures r == -1 <==> forall i :: 0 <= i < |c| ==> !RetrieveMatch(c[i], item, opts)
    ensures r >= 0 ==> RetrieveMatch(c[r], item, opts) && forall i :: 0 <= i < r ==> !RetrieveMatch(c[i], item, opts)
  {
    if c == [] then -1
    else if RetrieveMatch(c[0], item, opts) then 0
    else
      var r := FirstRetrieveMatch(c[1..], item, opts);
      if r == -1 then -1 else r + 1
  }

  /** retrieveItem: the quantity and options of the line the page stands
      for, or 0 and null. */
  function RetrieveItem(cart: Option<Cart>, item: Item, opts: Options): (res: (int, Option<Options>))
    ensures res.1.None? ==> res.0 == 0
    ensures res.1.Some? <==> cart.Some? && FirstRetrieveMatch(cart.value, item, opts) != -1
  {
    if cart.None? then (0, None)
    else
      var i := FirstRetrieveMatch(cart.value, item, opts);
      if i == -1 then (0, None) else (cart.value[i].quantity, Some(cart.value[i].item.options))
  }

  /** For an ordinary product the page finds the line addToCart would merge with. */
  lemma RetrieveFindsAddLine(c: Cart, item: Item, x: CartItem)
    requires !IsCustomOrder(item) && x.item.name == item.name
    ensures FirstRetrieveMatch(c, item, x.item.options) == FirstAddMatch(c, x)
  {
    var a := FirstRetrieveMatch(c, item, x.item.options);
    var b := FirstAddMatch(c, x);
    assert forall i :: 0 <= i < |c| ==> (RetrieveMatch(c[i], item, x.item.options) <==> AddMatch(c[i], x));
  }

  /** For a personalised product the page finds the line removeFromCart would touch. */
  lemma RetrieveFindsRemoveLine(c: Cart, item: Item, x: CartItem)
    requires IsCustomOrder(item) && x.item.name == item.name
    ensures FirstRetrieveMatch(c, item, x.item.options) == FirstRemoveMatch(c, x)
  {
    assert forall i :: 0 <= i < |c| ==> (RetrieveMatch(c[i], item, x.item.options) <==> RemoveMatch(c[i], x));
  }

  // ---------------------------------------------------------------- page state

  /** The product page's state: the product as loaded, its bundle prices and
      sizes (fixed when the page mounts), the copy of the product the buttons
      send, the quantity the page shows, the personalisation box, the chosen
      bundle size and the error text. */
  datatype Page = Page(
    item: Item,
    bundleOpts: PriceOptions,
    amounts: seq<nat>,
    temp: Item,
    quantity: int,
    customMsg: string,
    selected: nat,
    error: string)

  /** One call a handler makes on the cart store. */
  datatype CartCall = AddCall(line: CartItem) | RemoveCall(line: CartItem)

  datatype Step = Step(page: Page, calls: seq<CartCall>)

  /** The cart after the store has run the calls in order. */
  function Apply(cart: Option<Cart>, calls: seq<CartCall>): Option<Cart>
    decreases |calls|
  {
    if calls == [] then cart
    else
      var next := match calls[0]
        case AddCall(l) => Some(AddToCart(cart, l))
        case RemoveCall(l) => RemoveFromCart(cart, l);
      Apply(next, calls[1..])
  }

  /** Running a single add. */
  lemma ApplyAdd(cart: Option<Cart>, x: CartItem)
    ensures Apply(cart, [AddCall(x)]) == Some(AddToCart(cart, x))
  {
    assert [AddCall(x)][1..] == [];
  }

  /** Running a single remove. */
  lemma ApplyRemove(cart: Option<Cart>, x: CartItem)
    ensures Apply(cart, [RemoveCall(x)]) == RemoveFromCart(cart, x)
  {
    assert [RemoveCall(x)][1..] == [];
  }

  predicate HasBundles(p: Page) { |p.amounts| > 0 }

  /** The chosen bundle has a price: the size picker only offers listed sizes. */
  predicate SelectionPriced(p: Page) {
    !HasBundles(p) || BundlePrice(p.bundleOpts, p.selected).Some?
  }

  function SelectedPrice(p: Page): Price
    requires HasBundles(p) && SelectionPriced(p)
  {
    BundlePrice(p.bundleOpts, p.selected).value
  }

  /** The page shows the quantity of the line it finds in the cart. */
  predicate InSync(p: Page, cart: Option<Cart>) {
    RetrieveItem(cart, p.item, p.temp.options).0 == p.quantity
  }

  /** The message the page takes over from the line it finds: the first
      customMSG value when it is a non-empty string, otherwise "". */
  function MessageFromLine(line: Option<Options>, current: string): string {
    if line.Some? && JsObject.Get(line.value, CustomMsgKey).Some? then
      var m := JsObject.Get(line.value, CustomMsgKey).value;
      if |m| > 0 && m[0] != "" then m[0] else ""
    else current
  }

  /** The effect that runs whenever the page's options change: show the
      found line's quantity and take over its message. */
  function Sync(p: Page, cart: Option<Cart>): (q: Page)
    ensures InSync(q, cart)
    ensures q.temp == p.temp && q.selected == p.selected && q.amounts == p.amounts
  {
    var found := RetrieveItem(cart, p.item, p.temp.options);
    p.(quantity := found.0, customMsg := MessageFromLine(found.1, p.customMsg))
  }

  /** Bundle prices come as array-index keys of a well-formed object. */
  predicate PriceOptionsOk(item: Item) {
    JsObject.WellFormed(item.priceOptions) && AllIndexKeys(item.priceOptions)
  }

  /** The page once its mount effects have settled: pickers on their first
      values, the smallest bundle chosen and priced, the cart's line found. */
  function Mount(item: Item, cart: Option<Cart>): (p: Page)
    requires PriceOptionsOk(item)
    ensures SelectionPriced(p) && InSync(p, cart)
    ensures p.temp.name == p.item.name == item.name
    ensures p.bundleOpts == item.priceOptions
    ensures HasBundles(p) <==> |item.priceOptions| > 0
    ensures HasBundles(p) ==> p.selected in p.amounts && forall n :: n in p.amounts ==> p.selected <= n
    ensures HasBundles(p) ==> p.temp.price == SelectedPrice(p) && (NatToString(p.selected), p.temp.price) in item.priceOptions
  {
    var r := item.priceOptions;
    BundleOptsAsStored(r);
    var amounts := BundleAmounts(r);
    var selected := DefaultBundle(amounts);
    var options := InitialOptions(item.options);
    if |r| > 0 then
      BundlePriceFound(r, 0);
      DefaultIsSmallest(r);
      var temp := item.(options := options, price := r[0].1);
      Sync(Page(item, r, amounts, temp, 0, "", selected, ""), cart)
    else
      Sync(Page(item, r, amounts, item.(options := options), 0, "", selected, ""), cart)
  }

  // ---------------------------------------------------------------- buttons

  /** handleAddToCart. */
  function AddClick(p: Page): (s: Step)
    requires SelectionPriced(p)
    ensures var blocked := IsCustomOrder(p.item) && |p.customMsg| == 0;
      && (s.calls == [] <==> blocked || (HasBundles(p) && p.quantity > 0))
      && s.page.error == (if blocked then PersonalizationError else p.error)
      && (s.calls != [] ==> s.calls == [AddCall(CartItem(s.page.temp, s.page.quantity))])
      && (s.calls != [] && HasBundles(p) ==> s.page.quantity == p.selected && s.page.temp.price == SelectedPrice(p))
      && (s.calls != [] && !HasBundles(p) ==> s.page.quantity == p.quantity + 1 && s.page.temp == p.temp)
      && s.page.temp.options == p.temp.options && s.page.temp.name == p.temp.name
  {
    if IsCustomOrder(p.item) && |p.customMsg| == 0 then
      Step(p.(error := PersonalizationError), [])
    else if HasBundles(p) then
      if p.quantity > 0 then Step(p, [])
      else
        var updated := p.temp.(price := SelectedPrice(p));
        Step(p.(temp := updated, quantity := p.selected), [AddCall(CartItem(updated, p.selected))])
    else
      Step(p.(quantity := p.quantity + 1), [AddCall(CartItem(p.temp, p.quantity + 1))])
  }

  /** handleRemoveFromCart. */
  function RemoveClick(p: Page): (s: Step)
    ensures s.calls == [] <==> p.quantity <= 0
    ensures s.calls != [] ==> s.calls == [RemoveCall(CartItem(p.temp, s.page.quantity))]
    ensures s.calls != [] ==> 0 <= s.page.quantity < p.quantity
    ensures s.calls != [] && HasBundles(p) ==> s.page.quantity == 0
    ensures s.calls != [] && !HasBundles(p) ==> s.page.quantity == p.quantity - 1
    ensures s.page.temp == p.temp
  {
    if p.quantity <= 0 then Step(p, [])
    else if HasBundles(p) then Step(p.(quantity := 0), [RemoveCall(CartItem(p.temp, 0))])
    else Step(p.(quantity := p.quantity - 1), [RemoveCall(CartItem(p.temp, p.quantity - 1))])
  }

  /** handleClearCart. */
  function ClearClick(p: Page): (s: Step)
    requires SelectionPriced(p)
    ensures s.calls == [] <==> p.quantity == 0
    ensures s.calls != [] ==> s.page.quantity == 0 && s.page.customMsg == ""
    ensures s.calls != [] ==> |s.calls| == 1 && s.calls[0].RemoveCall? && s.calls[0].line.quantity == 0
    ensures s.calls != [] ==> s.calls[0].line.item == p.temp.(price := s.calls[0].line.item.price)
    ensures s.calls != [] && HasBundles(p) ==> s.calls[0].line.item.price == SelectedPrice(p)
    ensures s.page.temp == p.temp
  {
    if p.quantity == 0 then Step(p, [])
    else
      var price := if HasBundles(p) then SelectedPrice(p) else p.temp.price;
      Step(p.(quantity := 0, customMsg := ""), [RemoveCall(CartItem(p.temp.(price := price), 0))])
  }

  /** HandleCustomMsg. */
  function CustomMessage(p: Page, msg: string): (s: Step)
    ensures s.calls == [] && s.page.customMsg == msg && s.page.error == ""
    ensures s.page.temp == p.temp.(options := WithMessage(p.temp.options, msg))
  {
    Step(p.(error := "", customMsg := msg, temp := p.temp.(options := WithMessage(p.temp.options, msg))), [])
  }

  /** handleBundleChange as written: with the product in the cart it swaps
      the line for one of the new size and price, but leaves the quantity the
      page shows as it was. The price effect reprices the page's item either
      way. */
  function BundleChangeAsWritten(p: Page, n: nat): (s: Step)
    requires BundlePrice(p.bundleOpts, n).Some?
    ensures s.page.selected == n && s.page.quantity == p.quantity
    ensures s.calls != [] <==> p.quantity > 0
    ensures s.calls != [] ==> s.calls == [RemoveCall(CartItem(p.temp, 0)), AddCall(CartItem(s.page.temp, n))]
  {
    var updated := p.temp.(price := BundlePrice(p.bundleOpts, n).value);
    var q := p.(selected := n, temp := updated);
    if p.quantity > 0 then Step(q, [RemoveCall(CartItem(p.temp, 0)), AddCall(CartItem(updated, n))])
    else Step(q, [])
  }

  /** handleBundleChange with the page's quantity following the new size, as
      handleAddToCart does for the first bundle. */
  function BundleChange(p: Page, n: nat): (s: Step)
    requires BundlePrice(p.bundleOpts, n).Some?
    ensures s.page.selected == n
    ensures s.calls != [] <==> p.quantity > 0
    ensures s.calls != [] ==> s.page.quantity == n
    ensures s.calls != [] ==> s.calls == [RemoveCall(CartItem(p.temp, 0)), AddCall(CartItem(s.page.temp, s.page.quantity))]
    ensures s.calls == [] ==> s.page.quantity == p.quantity
    ensures s.page.temp == p.temp.(price := BundlePrice(p.bundleOpts, n).value)
  {
    var s := BundleChangeAsWritten(p, n);
    if p.quantity > 0 then Step(s.page.(quantity := n), s.calls) else s
  }

  // ---------------------------------------------------------------- page and cart agree

  /** The copy of the product the buttons send is the product the page
      shows (the page only ever changes its price, options and message). */
  predicate Shows(p: Page) {
    p.temp.name == p.item.name
  }

  /** Every line of the cart that removeFromCart would take for this item is
      the line of exactly these options: the cart holds no other variant of
      the product. */
  predicate NoOtherVariant(c: Cart, temp: Item) {
    forall j :: 0 <= j < |c| && RemoveMatch(c[j], CartItem(temp, 0)) ==> AddMatch(c[j], CartItem(temp, 0))
  }

  lemma ExactIsFirstLoose(c: Cart, x: CartItem, i: nat)
    requires NoOtherVariant(c, x.item) && i < |c| && FirstAddMatch(c, x) == i
    ensures FirstRemoveMatch(c, x) == i
  {
    AddMatchIsRemoveMatch(c[i], x);
    var k := FirstRemoveMatch(c, x);
    assert RemoveMatch(c[k], CartItem(x.item, 0));
  }

  /** Whether the cart holds another variant depends only on the product's
      name and options, not on its price. */
  lemma NoOtherVariantSameKey(c: Cart, t: Item, u: Item)
    requires t.name == u.name && t.options == u.options && NoOtherVariant(c, t)
    ensures NoOtherVariant(c, u)
  {
    forall j | 0 <= j < |c| && RemoveMatch(c[j], CartItem(u, 0)) ensures AddMatch(c[j], CartItem(u, 0)) {
      assert RemoveMatch(c[j], CartItem(t, 0));
    }
  }

  /** A cart whose lines are lines of a cart without other variants, or lines
      of exactly these options, holds no other variant either. */
  lemma NoOtherVariantKept(c: Cart, r: Cart, t: Item)
    requires NoOtherVariant(c, t)
    requires forall j :: 0 <= j < |r| ==> r[j] in c || AddMatch(r[j], CartItem(t, 0))
    ensures NoOtherVariant(r, t)
  {
    forall j | 0 <= j < |r| && RemoveMatch(r[j], CartItem(t, 0)) ensures AddMatch(r[j], CartItem(t, 0)) {
      if r[j] in c {
        var k :| 0 <= k < |c| && c[k] == r[j];
      }
    }
  }

  /** addToCart brings in no other variant of the product it adds. */
  lemma AddKeepsNoOtherVariant(c: Cart, x: CartItem)
    requires NoOtherVariant(c, x.item)
    ensures NoOtherVariant(AddToCart(Some(c), x), x.item)
  {
    var r := AddToCart(Some(c), x);
    var i := FirstAddMatch(c, x);
    if c != [] {
      if i == -1 {
        AddNewLine(c, x);
      } else if x.item.isBundle {
        AddExistingBundle(c, x, i);
      } else {
        AddExistingLine(c, x, i);
      }
    }
    forall j | 0 <= j < |r| ensures r[j] in c || AddMatch(r[j], CartItem(x.item, 0)) {
      if c != [] && i != -1 && j != i {
        assert r[j] == c[j];
      } else if c != [] && i == -1 && j < |c| {
        assert r[j] == c[j];
      }
    }
    NoOtherVariantKept(c, r, x.item);
  }

  /** removeFromCart brings in no other variant of the product it removes. */
  lemma RemoveKeepsNoOtherVariant(c: Cart, x: CartItem)
    requires NoOtherVariant(c, x.item)
    ensures NoOtherVariant(RemoveFromCart(Some(c), x).value, x.item)
  {
    var r := RemoveFromCart(Some(c), x).value;
    var k := FirstRemoveMatch(c, x);
    if k != -1 {
      RemoveOutcomes(c, x, k);
      forall j | 0 <= j < |r| ensures r[j] in c || AddMatch(r[j], CartItem(x.item, 0)) {
        if |r| < |c| {
          assert r[j] == (if j < k then c[j] else c[j + 1]);
        } else if j != k {
          assert r[j] == c[j];
        }
      }
      NoOtherVariantKept(c, r, x.item);
    }
  }

  /** The line the page finds is the line addToCart would merge with: always
      for an ordinary product, and for a personalised one when the cart
      holds no other variant of it. */
  lemma RetrieveFindsLine(c: Cart, item: Item, x: CartItem)
    requires x.item.name == item.name
    requires IsCustomOrder(item) ==> NoOtherVariant(c, x.item)
    ensures FirstRetrieveMatch(c, item, x.item.options) == FirstAddMatch(c, x)
  {
    if !IsCustomOrder(item) {
      RetrieveFindsAddLine(c, item, x);
    } else {
      RetrieveFindsRemoveLine(c, item, x);
      forall j | 0 <= j < |c| ensures RemoveMatch(c[j], x) ==> AddMatch(c[j], x) {
        if RemoveMatch(c[j], x) {
          assert RemoveMatch(c[j], CartItem(x.item, 0));
        }
      }
      var i := FirstAddMatch(c, x);
      if i != -1 {
        ExactIsFirstLoose(c, x, i);
      }
    }
  }

  lemma OnlyLine(c: Cart, x: CartItem, i: nat)
    requires UniqueAddKeys(c) && i < |c| && AddMatch(c[i], x)
    ensures forall j :: 0 <= j < |c| && j != i ==> !AddMatch(c[j], x)
  {
    forall j | 0 <= j < |c| && j != i ensures !AddMatch(c[j], x) {
      if j < i {
        assert !AddMatch(c[j], c[i]);
      } else {
        assert !AddMatch(c[i], c[j]);
      }
    }
  }

  /** Deleting the only line that matches leaves none. */
  lemma DeleteOnlyLine(c: Cart, x: CartItem, i: nat)
    requires UniqueAddKeys(c) && i < |c| && AddMatch(c[i], x)
    ensures FirstAddMatch(c[..i] + c[i + 1..], x) == -1
  {
    OnlyLine(c, x, i);
    var d := c[..i] + c[i + 1..];
    forall j | 0 <= j < |d| ensures !AddMatch(d[j], x) {
      if j < i {
        assert d[j] == c[j];
      } else {
        assert d[j] == c[j + 1];
      }
    }
  }

  /** A line added where nothing matched is the one found afterwards. */
  lemma AddWhereNoneMatched(c: Cart, x: CartItem)
    requires FirstAddMatch(c, x) == -1 && x.quantity >= 1
    ensures FirstAddMatch(AddToCart(Some(c), x), x) == |c|
    ensures AddToCart(Some(c), x)[|c|] == x
  {
    AddNewLine(c, x);
  }

  /** + on a product's page without bundles: the cart's line then holds the
      quantity the page shows. For a personalised product this needs a cart
      without another personalisation of it, which the lookup could find
      first; a + blocked by an empty message changes nothing. */
  lemma {:induction false} AddClickKeepsSync(p: Page, c: Cart)
    requires Shows(p) && !HasBundles(p) && !p.temp.isBundle
    requires IsCustomOrder(p.item) ==> NoOtherVariant(c, p.temp)
    requires PositiveQuantities(c) && InSync(p, Some(c))
    ensures var s := AddClick(p); InSync(s.page, Apply(Some(c), s.calls))
  {
    if IsCustomOrder(p.item) && |p.customMsg| == 0 {
      assert AddClick(p) == Step(p.(error := PersonalizationError), []);
    } else {
      var x := CartItem(p.temp, p.quantity + 1);
      assert AddClick(p) == Step(p.(quantity := p.quantity + 1), [AddCall(x)]);
      ApplyAdd(Some(c), x);
      RetrieveFindsLine(c, p.item, x);
      var i := FirstAddMatch(c, x);
      var c' := AddToCart(Some(c), x);
      if IsCustomOrder(p.item) {
        AddKeepsNoOtherVariant(c, x);
      }
      RetrieveFindsLine(c', p.item, x);
      if i == -1 {
        AddWhereNoneMatched(c, x);
      } else {
        AddExistingLine(c, x, i);
        assert AddMatch(c'[i], x);
        assert FirstAddMatch(c', x) == i by {
          forall j | 0 <= j < i ensures !AddMatch(c'[j], x) {
            assert c'[j] == c[j];
          }
        }
      }
    }
  }

  /** The case AddClickKeepsSync leaves out: a product flagged as a bundle
      but offering no sizes (the bundle editor sets the flag as soon as it
      opens). + then asks for one more, addToCart keeps the bundle line's
      quantity, and the page shows one more than the cart holds. */
  lemma {:induction false} AddClickOnFlaggedProductDrifts(p: Page, c: Cart)
    requires Shows(p) && !HasBundles(p) && p.temp.isBundle && p.quantity >= 1
    requires !(IsCustomOrder(p.item) && |p.customMsg| == 0)
    requires IsCustomOrder(p.item) ==> NoOtherVariant(c, p.temp)
    requires InSync(p, Some(c))
    ensures var s := AddClick(p); !InSync(s.page, Apply(Some(c), s.calls))
    ensures var s := AddClick(p); RetrieveItem(Apply(Some(c), s.calls), p.item, p.temp.options).0 == p.quantity
  {
    var x := CartItem(p.temp, p.quantity + 1);
    assert AddClick(p) == Step(p.(quantity := p.quantity + 1), [AddCall(x)]);
    ApplyAdd(Some(c), x);
    RetrieveFindsLine(c, p.item, x);
    var i := FirstAddMatch(c, x);
    var c' := AddToCart(Some(c), x);
    AddExistingBundle(c, x, i);
    if IsCustomOrder(p.item) {
      AddKeepsNoOtherVariant(c, x);
    }
    RetrieveFindsLine(c', p.item, x);
    assert AddMatch(c'[i], x);
    assert FirstAddMatch(c', x) == i by {
      forall j | 0 <= j < i ensures !AddMatch(c'[j], x) {
        assert c'[j] == c[j];
      }
    }
  }

  /** The first bundle added from the page: the cart's new line holds the
      chosen size, which the page shows. A personalised product needs a cart
      without another personalisation of it. */
  lemma {:induction false} AddBundleKeepsSync(p: Page, c: Cart)
    requires Shows(p) && HasBundles(p) && SelectionPriced(p) && p.selected >= 1
    requires IsCustomOrder(p.item) ==> NoOtherVariant(c, p.temp)
    requires PositiveQuantities(c) && InSync(p, Some(c))
    ensures var s := AddClick(p); InSync(s.page, Apply(Some(c), s.calls))
  {
    var s := AddClick(p);
    if s.calls != [] {
      var x := CartItem(s.page.temp, p.selected);
      if IsCustomOrder(p.item) {
        NoOtherVariantSameKey(c, p.temp, x.item);
        AddKeepsNoOtherVariant(c, x);
      }
      RetrieveFindsLine(c, p.item, x);
      var c' := AddToCart(Some(c), x);
      assert Apply(Some(c), s.calls) == Some(c');
      RetrieveFindsLine(c', p.item, x);
      AddWhereNoneMatched(c, x);
    }
  }

  /** Taking one unit off a line of more than one that is the first loose
      match keeps it the line found, one lower. */
  lemma DecrementKeepsLine(c: Cart, x: CartItem, i: nat)
    requires i < |c| && FirstAddMatch(c, x) == i && FirstRemoveMatch(c, x) == i
    requires !c[i].item.isBundle && c[i].quantity > 1 && x.quantity != 0
    ensures var c' := RemoveFromCart(Some(c), x).value;
      FirstAddMatch(c', x) == i && c'[i].quantity == c[i].quantity - 1
  {
    RemoveOutcomes(c, x, i);
    var c' := RemoveFromCart(Some(c), x).value;
    assert AddMatch(c'[i], x);
    forall j | 0 <= j < i ensures !AddMatch(c'[j], x) {
      assert c'[j] == c[j];
    }
  }

  /** Taking one unit off the line both matches find leaves the line that
      addToCart would find holding the requested quantity, or no line when
      the request is 0. */
  lemma RemoveOneFromLine(c: Cart, x: CartItem, i: nat)
    requires UniqueAddKeys(c) && i < |c| && FirstAddMatch(c, x) == i && FirstRemoveMatch(c, x) == i
    requires !c[i].item.isBundle && c[i].quantity >= 1 && x.quantity == c[i].quantity - 1
    ensures var c' := RemoveFromCart(Some(c), x).value; var j := FirstAddMatch(c', x);
      (if j == -1 then 0 else c'[j].quantity) == x.quantity
  {
    if x.quantity == 0 {
      RemoveOutcomes(c, x, i);
      assert RemoveFromCart(Some(c), x).value == c[..i] + c[i + 1..];
      DeleteOnlyLine(c, x, i);
    } else {
      DecrementKeepsLine(c, x, i);
    }
  }

  /** Taking one unit off the product's only line: the page's lookup then
      finds one unit less, or nothing once the line held one. */
  lemma RemoveOneSync(p: Page, c: Cart)
    requires Shows(p) && p.quantity >= 1
    requires UniqueAddKeys(c) && PositiveQuantities(c) && InSync(p, Some(c))
    requires NoOtherVariant(c, p.temp)
    requires forall j :: 0 <= j < |c| && c[j].item.name == p.item.name ==> !c[j].item.isBundle
    ensures InSync(p.(quantity := p.quantity - 1), RemoveFromCart(Some(c), CartItem(p.temp, p.quantity - 1)))
  {
    var x := CartItem(p.temp, p.quantity - 1);
    RetrieveFindsLine(c, p.item, x);
    var i := FirstAddMatch(c, x);
    ExactIsFirstLoose(c, x, i);
    RemoveOneFromLine(c, x, i);
    RemoveKeepsNoOtherVariant(c, x);
    RetrieveFindsLine(RemoveFromCart(Some(c), x).value, p.item, x);
  }

  /** - on a product's page, when the cart holds no other variant: a product
      with sizes loses its line and the page shows 0; any other product's
      line loses one unit, or goes when it held one, as the page shows. */
  lemma {:induction false} RemoveClickKeepsSync(p: Page, c: Cart)
    requires Shows(p)
    requires UniqueAddKeys(c) && PositiveQuantities(c) && InSync(p, Some(c))
    requires NoOtherVariant(c, p.temp)
    requires !HasBundles(p) ==> forall j :: 0 <= j < |c| && c[j].item.name == p.item.name ==> !c[j].item.isBundle
    ensures var s := RemoveClick(p); InSync(s.page, Apply(Some(c), s.calls))
  {
    if p.quantity <= 0 {
      assert RemoveClick(p) == Step(p, []);
    } else if HasBundles(p) {
      var x := CartItem(p.temp, 0);
      assert RemoveClick(p) == Step(p.(quantity := 0), [RemoveCall(x)]);
      ApplyRemove(Some(c), x);
      RetrieveFindsLine(c, p.item, x);
      var i := FirstAddMatch(c, x);
      ExactIsFirstLoose(c, x, i);
      var c' := RemoveFromCart(Some(c), x).value;
      assert c' == c[..i] + c[i + 1..];
      RemoveKeepsNoOtherVariant(c, x);
      RetrieveFindsLine(c', p.item, x);
      DeleteOnlyLine(c, x, i);
    } else {
      var x := CartItem(p.temp, p.quantity - 1);
      assert RemoveClick(p) == Step(p.(quantity := p.quantity - 1), [RemoveCall(x)]);
      ApplyRemove(Some(c), x);
      RemoveOneSync(p, c);
    }
  }

  /** Remove All, when the cart holds no other variant: the line goes and
      the page shows 0. */
  lemma {:induction false} ClearClickKeepsSync(p: Page, c: Cart)
    requires Shows(p) && SelectionPriced(p)
    requires UniqueAddKeys(c) && PositiveQuantities(c) && InSync(p, Some(c))
    requires NoOtherVariant(c, p.temp)
    ensures var s := ClearClick(p); InSync(s.page, Apply(Some(c), s.calls))
  {
    var s := ClearClick(p);
    if s.calls != [] {
      var x := s.calls[0].line;
      NoOtherVariantSameKey(c, p.temp, x.item);
      RetrieveFindsLine(c, p.item, x);
      var i := FirstAddMatch(c, x);
      ExactIsFirstLoose(c, x, i);
      var c' := RemoveFromCart(Some(c), x).value;
      assert c' == c[..i] + c[i + 1..];
      assert Apply(Some(c), s.calls) == Some(c');
      RemoveKeepsNoOtherVariant(c, x);
      RetrieveFindsLine(c', p.item, x);
      DeleteOnlyLine(c, x, i);
    }
  }

  /** The two calls of a bundle change leave one line of the new size. */
  lemma {:induction false} BundleSwapResult(p: Page, c: Cart, n: nat)
    requires Shows(p) && BundlePrice(p.bundleOpts, n).Some? && n >= 1 && p.quantity > 0
    requires UniqueAddKeys(c) && PositiveQuantities(c) && InSync(p, Some(c))
    requires NoOtherVariant(c, p.temp)
    ensures var s := BundleChangeAsWritten(p, n);
      RetrieveItem(Apply(Some(c), s.calls), p.item, s.page.temp.options).0 == n
  {
    var s := BundleChangeAsWritten(p, n);
    var x := CartItem(p.temp, 0);
    var y := CartItem(s.page.temp, n);
    RetrieveFindsLine(c, p.item, x);
    var i := FirstAddMatch(c, x);
    ExactIsFirstLoose(c, x, i);
    var c1 := RemoveFromCart(Some(c), x).value;
    assert c1 == c[..i] + c[i + 1..];
    DeleteOnlyLine(c, x, i);
    assert FirstAddMatch(c1, y) == -1 by {
      assert forall j :: 0 <= j < |c1| ==> (AddMatch(c1[j], y) <==> AddMatch(c1[j], x));
    }
    RemoveKeepsNoOtherVariant(c, x);
    NoOtherVariantSameKey(c1, p.temp, y.item);
    var c2 := AddToCart(Some(c1), y);
    AddKeepsNoOtherVariant(c1, y);
    assert s.calls[1..] == [AddCall(y)] && [AddCall(y)][1..] == [];
    assert Apply(Some(c), s.calls) == Apply(Some(c1), [AddCall(y)]);
    assert Apply(Some(c1), [AddCall(y)]) == Apply(Some(c2), []);
    AddWhereNoneMatched(c1, y);
    RetrieveFindsLine(c2, p.item, y);
  }

  /** Changing the bundle with the corrected handler keeps page and cart in step. */
  lemma BundleChangeKeepsSync(p: Page, c: Cart, n: nat)
    requires Shows(p) && BundlePrice(p.bundleOpts, n).Some? && n >= 1
    requires UniqueAddKeys(c) && PositiveQuantities(c) && InSync(p, Some(c))
    requires NoOtherVariant(c, p.temp)
    ensures var s := BundleChange(p, n); InSync(s.page, Apply(Some(c), s.calls))
  {
    if p.quantity > 0 {
      BundleSwapResult(p, c, n);
    }
  }

  /** As written, changing to another size while the product is in the cart
      leaves the page showing the old size. */
  lemma BundleChangeAsWrittenDrifts(p: Page, c: Cart, n: nat)
    requires Shows(p) && BundlePrice(p.bundleOpts, n).Some? && n >= 1 && p.quantity > 0 && n != p.quantity
    requires UniqueAddKeys(c) && PositiveQuantities(c) && InSync(p, Some(c))
    requires NoOtherVariant(c, p.temp)
    ensures var s := BundleChangeAsWritten(p, n); !InSync(s.page, Apply(Some(c), s.calls))
  {
    BundleSwapResult(p, c, n);
  }
}

=== FILE: js_object.dfy ===
/** A JavaScript plain object (`Record<string, V>`) as the sequence of its own
    properties in enumeration order, which is the order Object.keys,
    Object.entries and JSON.stringify use: first the keys that are array
    indices, in ascending numeric order, then every other key in the order it
    was first created. */
module JsObject {
  import opened Text

  type Record<V> = seq<(string, V)>

  /** A canonical decimal numeral below 2^32 - 1, which JavaScript treats as
      an array index and enumerates before all other keys. */
  predicate IsArrayIndex(k: string) {
    && |k| >= 1 && AllDigits(k) && (k[0] != '0' || |k| == 1)
    && DigitsValue(k) < 0xFFFF_FFFF
  }

  function IndexValue(k: string): nat
    requires IsArrayIndex(k)
  {
    DigitsValue(k)
  }

  function Keys<V(!new)>(r: Record<V>): (ks: seq<string>)
    ensures |ks| == |r| && forall i :: 0 <= i < |r| ==> ks[i] == r[i].0
  {
    if r == [] then [] else [r[0].0] + Keys(r[1..])
  }

  predicate DistinctKeys<V(!new)>(r: Record<V>) {
    forall i, j :: 0 <= i < j < |r| ==> r[i].0 != r[j].0
  }

  /** Array-index keys form an ascending prefix. */
  predicate IndexKeysFirst<V(!new)>(r: Record<V>) {
    forall i, j :: 0 <= i < j < |r| && IsArrayIndex(r[j].0) ==>
      IsArrayIndex(r[i].0) && IndexValue(r[i].0) <= IndexValue(r[j].0)
  }

  /** What every object JavaScript can build looks like. */
  predicate WellFormed<V(!new)>(r: Record<V>) {
    DistinctKeys(r) && IndexKeysFirst(r)
  }

  /** obj[k], with undefined as None. */
  function Get<V(!new)>(r: Record<V>, k: string): (v: Option<V>)
    ensures v.Some? <==> k in Keys(r)
    ensures v.Some? ==> (k, v.value) in r
  {
    if r == [] then None
    else if r[0].0 == k then Some(r[0].1)
    else Get(r[1..], k)
  }

  /** Replaces the value of an existing key, keeping its position. */
  function Replace<V(!new)>(r: Record<V>, k: string, v: V): (r': Record<V>)
    ensures |r'| == |r| && Keys(r') == Keys(r)
    ensures forall i :: 0 <= i < |r| ==> r'[i] == (if r[i].0 == k then (k, v) else r[i])
  {
    if r == [] then []
    else [if r[0].0 == k then (k, v) else r[0]] + Replace(r[1..], k, v)
  }

  /** Creates a new array-index key after every array-index key not above it. */
  function InsertIndexKey<V(!new)>(r: Record<V>, k: string, v: V): (r': Record<V>)
    requires IsArrayIndex(k)
    ensures |r'| == |r| + 1
    ensures forall e :: e in r' <==> e == (k, v) || e in r
  {
    if r != [] && IsArrayIndex(r[0].0) && IndexValue(r[0].0) <= IndexValue(k) then
      [r[0]] + InsertIndexKey(r[1..], k, v)
    else
      [(k, v)] + r
  }

  /** `{ ...r, [k]: v }` */
  function Put<V(!new)>(r: Record<V>, k: string, v: V): Record<V> {
    if k in Keys(r) then Replace(r, k, v)
    else if IsArrayIndex(k) then InsertIndexKey(r, k, v)
    else r + [(k, v)]
  }

  /** `delete r[k]` */
  function Delete<V(!new)>(r: Record<V>, k: string): (r': Record<V>)
    ensures |r'| <= |r|
    ensures forall e :: e in r' <==> e in r && e.0 != k
  {
    if r == [] then []
    else if r[0].0 == k then Delete(r[1..], k)
    else [r[0]] + Delete(r[1..], k)
  }

  /** x may stand in front of every entry of r in a well-formed object. */
  ghost predicate MayPrecede<V(!new)>(x: (string, V), r: Record<V>) {
    forall e :: e in r ==> x.0 != e.0 && (IsArrayIndex(e.0) ==> IsArrayIndex(x.0) && IndexValue(x.0) <= IndexValue(e.0))
  }

  lemma WellFormedCons<V(!new)>(x: (string, V), r: Record<V>)
    ensures WellFormed([x] + r) <==> WellFormed(r) && MayPrecede(x, r)
  {
    var r' := [x] + r;
    if WellFormed(r') {
      forall e | e in r
        ensures x.0 != e.0 && (IsArrayIndex(e.0) ==> IsArrayIndex(x.0) && IndexValue(x.0) <= IndexValue(e.0))
      {
        var j :| 0 <= j < |r| && r[j] == e;
        assert r'[0] == x && r'[j + 1] == e;
      }
      forall i, j | 0 <= i < j < |r|
        ensures r[i].0 != r[j].0
      {
        assert r'[i + 1] == r[i] && r'[j + 1] == r[j];
      }
      forall i, j | 0 <= i < j < |r| && IsArrayIndex(r[j].0)
        ensures IsArrayIndex(r[i].0) && IndexValue(r[i].0) <= IndexValue(r[j].0)
      {
        assert r'[i + 1] == r[i] && r'[j + 1] == r[j];
      }
    }
    if WellFormed(r) && MayPrecede(x, r) {
      forall i, j | 0 <= i < j < |r'|
        ensures r'[i].0 != r'[j].0
        ensures IsArrayIndex(r'[j].0) ==> IsArrayIndex(r'[i].0) && IndexValue(r'[i].0) <= IndexValue(r'[j].0)
      {
        assert r'[j] == r[j - 1];
        if i > 0 {
          assert r'[i] == r[i - 1];
        } else {
          assert r[j - 1] in r;
        }
      }
    }
  }

  lemma {:induction false} InsertIndexKeyWellFormed<V(!new)>(r: Record<V>, k: string, v: V)
    requires WellFormed(r) && IsArrayIndex(k) && k !in Keys(r)
    ensures WellFormed(InsertIndexKey(r, k, v))
    decreases |r|
  {
    if r != [] {
      WellFormedCons(r[0], r[1..]);
      assert r == [r[0]] + r[1..];
    }
    if r != [] && IsArrayIndex(r[0].0) && IndexValue(r[0].0) <= IndexValue(k) {
      assert Keys(r) == [r[0].0] + Keys(r[1..]);
      InsertIndexKeyWellFormed(r[1..], k, v);
      WellFormedCons(r[0], InsertIndexKey(r[1..], k, v));
    } else {
      forall e | e in r && IsArrayIndex(e.0)
        ensures IndexValue(k) <= IndexValue(e.0)
      {
        if e != r[0] {
          assert e in r[1..];
        }
      }
      forall e | e in r
        ensures k != e.0
      {
        var i :| 0 <= i < |r| && r[i] == e;
        assert Keys(r)[i] == e.0;
      }
      WellFormedCons((k, v), r);
    }
  }

  lemma KeysIn<V(!new)>(r: Record<V>, k: string)
    ensures k in Keys(r) <==> exists w :: (k, w) in r
  {
    if k in Keys(r) {
      var i :| 0 <= i < |r| && Keys(r)[i] == k;
      assert (k, r[i].1) in r;
    }
    if exists w :: (k, w) in r {
      var w :| (k, w) in r;
      var i :| 0 <= i < |r| && r[i] == (k, w);
      assert Keys(r)[i] == k;
    }
  }

  /** With distinct keys the value found is the only one stored under the key. */
  lemma GetUnique<V(!new)>(r: Record<V>, k: string, w: V)
    requires DistinctKeys(r) && (k, w) in r
    ensures Get(r, k) == Some(w)
  {
    KeysIn(r, k);
    var i :| 0 <= i < |r| && r[i] == (k, w);
    var j :| 0 <= j < |r| && r[j] == (k, Get(r, k).value);
  }

  /** Two objects with distinct keys that store the same entries under k agree on k. */
  lemma GetAgree<V(!new)>(r1: Record<V>, r2: Record<V>, k: string)
    requires DistinctKeys(r1) && DistinctKeys(r2)
    requires forall w :: (k, w) in r1 <==> (k, w) in r2
    ensures Get(r1, k) == Get(r2, k)
  {
    KeysIn(r1, k);
    KeysIn(r2, k);
    if Get(r1, k).Some? {
      GetUnique(r2, k, Get(r1, k).value);
    }
  }

  lemma ReplaceEntries<V(!new)>(r: Record<V>, k: string, v: V)
    requires DistinctKeys(r) && k in Keys(r)
    ensures DistinctKeys(Replace(r, k, v))
    ensures forall e :: e in Replace(r, k, v) <==> e == (k, v) || (e.0 != k && e in r)
  {
    var r' := Replace(r, k, v);
    KeysIn(r, k);
    forall e ensures e in r' <==> e == (k, v) || (e.0 != k && e in r) {
      if e in r' {
        var i :| 0 <= i < |r'| && r'[i] == e;
      }
      if e.0 != k && e in r {
        var i :| 0 <= i < |r| && r[i] == e;
        assert r'[i] == e;
      }
      if e == (k, v) {
        var w :| (k, w) in r;
        var i :| 0 <= i < |r| && r[i] == (k, w);
        assert r'[i] == e;
      }
    }
    assert Keys(r') == Keys(r);
    forall i, j | 0 <= i < j < |r'|
      ensures r'[i].0 != r'[j].0
    {
      assert Keys(r')[i] == Keys(r)[i] && Keys(r')[j] == Keys(r)[j];
    }
  }

  lemma AppendWellFormed<V(!new)>(r: Record<V>, k: string, v: V)
    requires WellFormed(r) && !IsArrayIndex(k) && forall e :: e in r ==> e.0 != k
    ensures WellFormed(r + [(k, v)])
  {
    var r' := r + [(k, v)];
    forall i, j | 0 <= i < j < |r'|
      ensures r'[i].0 != r'[j].0
      ensures IsArrayIndex(r'[j].0) ==> IsArrayIndex(r'[i].0) && IndexValue(r'[i].0) <= IndexValue(r'[j].0)
    {
      assert r'[i] == r[i] && r[i] in r;
      if j < |r| {
        assert r'[j] == r[j];
      }
    }
  }

  /** The entries of a write: the new pair plus every entry under another key. */
  lemma PutEntries<V(!new)>(r: Record<V>, k: string, v: V)
    requires WellFormed(r)
    ensures WellFormed(Put(r, k, v))
    ensures forall e :: e in Put(r, k, v) <==> e == (k, v) || (e.0 != k && e in r)
  {
    if k in Keys(r) {
      ReplaceEntries(r, k, v);
      var r' := Replace(r, k, v);
      assert Keys(r') == Keys(r);
      forall i, j | 0 <= i < j < |r'| && IsArrayIndex(r'[j].0)
        ensures IsArrayIndex(r'[i].0) && IndexValue(r'[i].0) <= IndexValue(r'[j].0)
      {
        assert Keys(r')[i] == Keys(r)[i] && Keys(r')[j] == Keys(r)[j];
      }
    } else {
      forall e | e in r
        ensures e.0 != k
      {
        var i :| 0 <= i < |r| && r[i] == e;
        assert Keys(r)[i] == e.0;
      }
      if IsArrayIndex(k) {
        InsertIndexKeyWellFormed(r, k, v);
      } else {
        AppendWellFormed(r, k, v);
      }
    }
  }

  /** Writing a key keeps the object well formed, stores the value under it and
      leaves every other key's value alone. */
  lemma PutSpec<V(!new)>(r: Record<V>, k: string, v: V)
    requires WellFormed(r)
    ensures WellFormed(Put(r, k, v))
    ensures Get(Put(r, k, v), k) == Some(v)
    ensures forall k' :: k' != k ==> Get(Put(r, k, v), k') == Get(r, k')
  {
    var r' := Put(r, k, v);
    PutEntries(r, k, v);
    GetUnique(r', k, v);
    forall k' | k' != k
      ensures Get(r', k') == Get(r, k')
    {
      GetAgree(r', r, k');
    }
  }

  /** Deleting a key keeps the order of the others and the object well formed. */
  lemma {:induction false} DeleteSpec<V(!new)>(r: Record<V>, k: string)
    requires WellFormed(r)
    ensures WellFormed(Delete(r, k))
    ensures k !in Keys(Delete(r, k))
    ensures forall k' :: k' != k ==> Get(Delete(r, k), k') == Get(r, k')
    decreases |r|
  {
    var d := Delete(r, k);
    if r != [] {
      WellFormedCons(r[0], r[1..]);
      assert r == [r[0]] + r[1..];
      DeleteSpec(r[1..], k);
      if r[0].0 != k {
        WellFormedCons(r[0], Delete(r[1..], k));
      }
    }
    KeysIn(d, k);
    forall k' | k' != k
      ensures Get(d, k') == Get(r, k')
    {
      GetAgree(d, r, k');
    }
  }

  lemma PrefixWellFormed<V(!new)>(r: Record<V>, n: nat)
    requires WellFormed(r) && n <= |r|
    ensures WellFormed(r[..n])
  {
    assert forall i :: 0 <= i < n ==> r[..n][i] == r[i];
  }

  lemma LastKeyIsNew<V(!new)>(r: Record<V>)
    requires DistinctKeys(r) && |r| > 0
    ensures r[|r| - 1].0 !in Keys(r[..|r| - 1])
  {
    var n := |r| - 1;
    var ks := Keys(r[..n]);
    forall i | 0 <= i < n ensures ks[i] != r[n].0 {
      assert ks[i] == r[i].0;
    }
  }

  /** Looking a key up in an object with one more entry at the end. */
  lemma {:induction false} GetSnoc<V(!new)>(r: Record<V>, k: string, v: V, k': string)
    ensures Get(r + [(k, v)], k') == if k' in Keys(r) then Get(r, k') else if k' == k then Some(v) else None
    decreases |r|
  {
    if r != [] {
      assert (r + [(k, v)])[1..] == r[1..] + [(k, v)];
      assert Keys(r) == [r[0].0] + Keys(r[1..]);
      GetSnoc(r[1..], k, v, k');
    }
  }

  /** In an object with distinct keys the last entry is the value of its key
      and every other key is found in the entries before it. */
  lemma GetLast<V(!new)>(r: Record<V>, k': string)
    requires DistinctKeys(r) && |r| > 0
    ensures var n := |r| - 1;
      Get(r, k') == if k' == r[n].0 then Some(r[n].1) else Get(r[..n], k')
  {
    var n := |r| - 1;
    LastKeyIsNew(r);
    assert r == r[..n] + [(r[n].0, r[n].1)];
    GetSnoc(r[..n], r[n].0, r[n].1, k');
    if k' != r[n].0 && k' !in Keys(r[..n]) {
      assert Get(r[..n], k') == None;
    }
  }
}

=== FILE: lists.dfy ===
/** The array operations the pages use: slice from the start, filter, and
    the subsequence relation filter establishes. */
module Lists {

  /** Array.prototype.slice(0, n). */
  function Take<T>(s: seq<T>, n: nat): (r: seq<T>)
    ensures |r| == if |s| < n then |s| else n
    ensures r == s[..|r|]
  {
    if |s| < n then s else s[..n]
  }

  /** a is b with some elements left out, in b's order. */
  ghost predicate Subsequence<T>(a: seq<T>, b: seq<T>)
    decreases |b|
  {
    a == [] || (b != [] && ((a[0] == b[0] && Subsequence(a[1..], b[1..])) || Subsequence(a, b[1..])))
  }

  lemma {:induction false} SubsequenceReflexive<T>(s: seq<T>)
    ensures Subsequence(s, s)
    decreases |s|
  {
    if s != [] {
      SubsequenceReflexive(s[1..]);
    }
  }

  /** Array.prototype.filter. */
  function Filter<T(==,!new)>(s: seq<T>, f: T -> bool): (r: seq<T>)
    ensures forall x :: x in r <==> x in s && f(x)
    ensures r == [] <==> forall i :: 0 <= i < |s| ==> !f(s[i])
    decreases |s|
  {
    if s == [] then []
    else if f(s[0]) then [s[0]] + Filter(s[1..], f)
    else Filter(s[1..], f)
  }

  /** A filter keeps the elements it keeps in their order. */
  lemma {:induction false} FilterSubsequence<T(!new)>(s: seq<T>, f: T -> bool)
    ensures Subsequence(Filter(s, f), s)
    decreases |s|
  {
    if s != [] {
      FilterSubsequence(s[1..], f);
      if f(s[0]) {
        assert Filter(s, f)[1..] == Filter(s[1..], f);
      }
    }
  }

  /** A filter keeps each element it keeps as often as it occurs, and drops
      every occurrence of the others. */
  lemma {:induction false} FilterCount<T(!new)>(s: seq<T>, f: T -> bool)
    ensures forall x :: multiset(Filter(s, f))[x] == if f(x) then multiset(s)[x] else 0
    decreases |s|
  {
    if s != [] {
      FilterCount(s[1..], f);
      assert s == [s[0]] + s[1..];
      assert multiset(s) == multiset([s[0]]) + multiset(s[1..]);
      if f(s[0]) {
        assert Filter(s, f) == [s[0]] + Filter(s[1..], f);
        assert multiset(Filter(s, f)) == multiset([s[0]]) + multiset(Filter(s[1..], f));
      }
    }
  }

  lemma {:induction false} PrefixSubsequence<T>(a: seq<T>, b: seq<T>, n: nat)
    requires Subsequence(a, b) && n <= |a|
    ensures Subsequence(a[..n], b)
    decreases |b|
  {
    if n > 0 {
      if a[0] == b[0] && Subsequence(a[1..], b[1..]) {
        PrefixSubsequence(a[1..], b[1..], n - 1);
        assert a[..n][1..] == a[1..][..n - 1];
      } else {
        PrefixSubsequence(a, b[1..], n);
      }
    }
  }

  /** Filtering a concatenation filters each part. */
  lemma {:induction false} FilterConcat<T(!new)>(a: seq<T>, b: seq<T>, f: T -> bool)
    ensures Filter(a + b, f) == Filter(a, f) + Filter(b, f)
    decreases |a|
  {
    if a != [] {
      var rest := a[1..] + b;
      assert a + b == [a[0]] + rest && (a + b)[1..] == rest;
      FilterConcat(a[1..], b, f);
      if f(a[0]) {
        assert Filter(a + b, f) == [a[0]] + Filter(rest, f);
        assert Filter(a, f) == [a[0]] + Filter(a[1..], f);
      } else {
        assert Filter(a + b, f) == Filter(rest, f);
      }
    } else {
      assert a + b == b;
    }
  }

  /** A filter that keeps every element returns the array unchanged. */
  lemma {:induction false} FilterAll<T(!new)>(s: seq<T>, f: T -> bool)
    requires forall i :: 0 <= i < |s| ==> f(s[i])
    ensures Filter(s, f) == s
    decreases |s|
  {
    if s != [] {
      FilterAll(s[1..], f);
    }
  }

  /** Filters whose tests agree on the array's elements give the same result. */
  lemma {:induction false} FilterAgree<T(!new)>(s: seq<T>, f: T -> bool, g: T -> bool)
    requires forall i :: 0 <= i < |s| ==> f(s[i]) == g(s[i])
    ensures Filter(s, f) == Filter(s, g)
    decreases |s|
  {
    if s != [] {
      FilterAgree(s[1..], f, g);
    }
  }
}

=== FILE: orders.dfy ===
/** The orders admin page: the status tabs, the field search, the order
    card's Confirm button, the label formatter and the status colour. */
module Orders {
  import opened Text
  import opened Interfaces
  import opened Lists

  // ---------------------------------------------------------------- status tabs

  /** The three statuses an order moves through. */
  datatype Stage = Added | InProgress | Fulfilled

  /** The status bar's tab for a stage (the fourth tab is "All"). */
  function TabLabel(s: Stage): string {
    match s
    case Added => "Added"
    case InProgress => "In_Progress"
    case Fulfilled => "Fulfilled"
  }

  /** The status the card editor's button for a stage writes: the tab's
      label in lower case. */
  function Written(s: Stage): (r: string)
    ensures r != [] && forall i :: 0 <= i < |r| ==> 'a' <= r[i] <= 'z' || r[i] == '_'
    ensures |r| == |TabLabel(s)| && forall i :: 0 <= i < |r| ==> LowerChar(TabLabel(s)[i]) == r[i]
  {
    match s
    case Added => "added"
    case InProgress => "in_progress"
    case Fulfilled => "fulfilled"
  }

  /** Two statuses agree once lower-cased and trimmed. */
  predicate SameStatus(a: string, b: string) {
    Trim(Lower(a)) == Trim(Lower(b))
  }

  /** The status effect: None when it returns early and leaves the list as
      it was, otherwise the list it shows. */
  function StatusFiltered(data: seq<Order>, statusFilter: string): (r: Option<seq<Order>>)
    ensures r.None? <==> statusFilter == ""
    ensures statusFilter == "All" ==> r == Some(data)
    ensures r.Some? ==> Subsequence(r.value, data)
    ensures r.Some? && statusFilter != "All" ==> forall o :: o in r.value <==> o in data && SameStatus(o.status, statusFilter)
    ensures r.Some? && statusFilter != "All" ==>
      forall o :: multiset(r.value)[o] == if SameStatus(o.status, statusFilter) then multiset(data)[o] else 0
  {
    if statusFilter == "" then None
    else if statusFilter == "All" then
      SubsequenceReflexive(data);
      Some(data)
    else
      FilterSubsequence(data, (o: Order) => SameStatus(o.status, statusFilter));
      FilterCount(data, (o: Order) => SameStatus(o.status, statusFilter));
      Some(Filter(data, (o: Order) => SameStatus(o.status, statusFilter)))
  }

  /** A lower-case status is its own lower case and its own trim, and the
      tab lower-cases to it. */
  lemma StageForms(s: Stage)
    ensures Lower(TabLabel(s)) == Written(s)
    ensures Lower(Written(s)) == Written(s)
    ensures Trim(Written(s)) == Written(s)
  {
    LowerCaseForms(TabLabel(s), Written(s));
  }

  lemma LowerCaseForms(tab: string, status: string)
    requires |tab| == |status| && forall i :: 0 <= i < |tab| ==> LowerChar(tab[i]) == status[i]
    requires status != [] && forall i :: 0 <= i < |status| ==> 'a' <= status[i] <= 'z' || status[i] == '_'
    ensures Lower(tab) == status && Lower(status) == status && Trim(status) == status
  {
    assert forall i :: 0 <= i < |status| ==> LowerChar(status[i]) == status[i];
    assert Lower(tab) == status;
    assert Lower(status) == status;
    assert !IsSpace(status[0]) && LeadingSpaces(status) == 0;
    assert TrimStart(status) == status;
    assert !IsSpace(status[|status| - 1]);
    assert TrimEnd(status) == status;
  }

  /** An order whose status the editor set is listed under the matching tab
      and under no other status tab. */
  lemma EditedOrderUnderItsTab(data: seq<Order>, o: Order, s: Stage, tab: Stage)
    requires o in data && o.status == Written(s)
    ensures o in StatusFiltered(data, TabLabel(tab)).value <==> s == tab
  {
    StageForms(s);
    StageForms(tab);
    WrittenDistinct(s, tab);
    assert SameStatus(o.status, TabLabel(tab)) <==> Written(s) == Written(tab);
    assert TabLabel(tab) != "" && TabLabel(tab) != "All";
  }

  lemma WrittenDistinct(s: Stage, t: Stage)
    ensures Written(s) == Written(t) <==> s == t
  {
    assert |Written(Added)| == 5 && |Written(InProgress)| == 11 && |Written(Fulfilled)| == 9;
  }

  // ---------------------------------------------------------------- search

  /** The properties of an order a search can name. */
  datatype OrderKey = IdKey | ItemsKey | TotalPriceKey | BillingInfoKey | StatusKey | TrackingNumberKey | DateKey | LocalKey

  /** The run-time type of a property: a string, a number or anything else. */
  datatype FieldValue = StringValue(s: string) | NumberValue(n: int) | OtherValue

  function FieldOf(o: Order, key: OrderKey): FieldValue {
    match key
    case IdKey => if o.id.Some? then StringValue(o.id.value) else OtherValue
    case ItemsKey => OtherValue
    case TotalPriceKey => NumberValue(o.totalPrice)
    case BillingInfoKey => OtherValue
    case StatusKey => StringValue(o.status)
    case TrackingNumberKey => if o.trackingNumber.Some? then StringValue(o.trackingNumber.value) else OtherValue
    case DateKey => StringValue(o.date)
    case LocalKey => OtherValue
  }

  /** A string matches case-insensitively, a number by its decimal form, and
      nothing else matches. */
  predicate FieldMatches(v: FieldValue, term: string) {
    match v
    case StringValue(s) => Includes(Lower(s), Lower(term))
    case NumberValue(n) => Includes(IntToString(n), term)
    case OtherValue => false
  }

  /** SearchBar.handleSearch. */
  function SearchOrders(data: seq<Order>, term: string, key: OrderKey): (r: seq<Order>)
    ensures Subsequence(r, data)
    ensures forall o :: o in r <==> o in data && FieldMatches(FieldOf(o, key), term)
    ensures forall o :: multiset(r)[o] == if FieldMatches(FieldOf(o, key), term) then multiset(data)[o] else 0
  {
    FilterSubsequence(data, (o: Order) => FieldMatches(FieldOf(o, key), term));
    FilterCount(data, (o: Order) => FieldMatches(FieldOf(o, key), term));
    Filter(data, (o: Order) => FieldMatches(FieldOf(o, key), term))
  }

  /** An empty search lists every order by date, and by id every order that
      has one. */
  lemma EmptySearch(data: seq<Order>)
    ensures SearchOrders(data, "", DateKey) == data
    ensures forall o :: o in SearchOrders(data, "", IdKey) <==> o in data && o.id.Some?
  {
    assert Lower("") == "";
    forall o: Order ensures FieldMatches(FieldOf(o, DateKey), "") {
      assert StartsWith(Lower(o.date), "");
    }
    forall o: Order | o.id.Some? ensures FieldMatches(FieldOf(o, IdKey), "") {
      assert StartsWith(Lower(o.id.value), "");
    }
    FilterAll(data, (o: Order) => FieldMatches(FieldOf(o, DateKey), ""));
  }

  /** A text field ignores the case of the search term; the numeric field
      compares the term as typed. */
  lemma SearchIgnoresCase(data: seq<Order>, term: string, term': string, key: OrderKey)
    requires Lower(term) == Lower(term') && key != TotalPriceKey
    ensures SearchOrders(data, term, key) == SearchOrders(data, term', key)
  {
    FilterAgree(data, (o: Order) => FieldMatches(FieldOf(o, key), term), (o: Order) => FieldMatches(FieldOf(o, key), term'));
  }

  // ---------------------------------------------------------------- confirm

  /** The update request a Confirm click sends. */
  datatype Update = Update(orderId: string, status: string, trackingNumber: string)

  /** charAt(0).toUpperCase() + slice(1). */
  function Capitalize(s: string): (r: string)
    ensures |r| == |s|
    ensures |s| > 0 ==> r[0] == UpperChar(s[0]) && r[1..] == s[1..]
  {
    if s == [] then [] else [UpperChar(s[0])] + s[1..]
  }

  /** The card's edit state starts from the order, with " " standing in for
      an empty or missing value. */
  function SeedStatus(o: Order): (r: string)
    ensures r != ""
    ensures o.status != "" ==> r == o.status
    ensures o.status == "" ==> r == " "
  {
    if o.status == "" then " " else o.status
  }

  function SeedTracking(o: Order): (r: string)
    ensures r != ""
    ensures o.trackingNumber.Some? && o.trackingNumber.value != "" ==> Some(r) == o.trackingNumber
    ensures r != " " && o.trackingNumber.Some? ==> Some(r) == o.trackingNumber
    ensures o.trackingNumber.None? || o.trackingNumber == Some("") ==> r == " "
  {
    if o.trackingNumber.Some? && o.trackingNumber.value != "" then o.trackingNumber.value else " "
  }

  /** `!order._id`: an order without an id, or with an empty one, is never sent. */
  predicate HasId(o: Order) {
    o.id.Some? && o.id.value != ""
  }

  /** handleOrderUpdate as written: the edit state is compared with the
      order's own fields. */
  function ConfirmAsWritten(o: Order, status: string, tracking: string): (r: Option<Update>)
    ensures r.Some? <==> HasId(o) && (Capitalize(status) != Capitalize(o.status) || o.trackingNumber != Some(tracking))
    ensures r.Some? ==> r.value == Update(o.id.value, status, tracking)
  {
    var statusChanged := Capitalize(status) != Capitalize(o.status);
    var trackingChanged := o.trackingNumber != Some(tracking);
    if HasId(o) && (statusChanged || trackingChanged) then Some(Update(o.id.value, status, tracking))
    else None
  }

  /** An order without a tracking number sends an update on every Confirm,
      even when nothing was edited. */
  lemma UntouchedConfirmSendsAsWritten(o: Order)
    requires HasId(o) && (o.trackingNumber.None? || o.trackingNumber == Some(""))
    ensures ConfirmAsWritten(o, SeedStatus(o), SeedTracking(o)) == Some(Update(o.id.value, SeedStatus(o), " "))
  {
  }

  /** A concrete card: a new order with no tracking number yet. */
  lemma UntouchedNewOrderSends()
    ensures var o := Order(Some("a1"), [], 1500, Bill("", "", "", "", "", "", "", None), "added", None, "2025-01-01", false);
      ConfirmAsWritten(o, SeedStatus(o), SeedTracking(o)).Some?
  {
    var o := Order(Some("a1"), [], 1500, Bill("", "", "", "", "", "", "", None), "added", None, "2025-01-01", false);
    UntouchedConfirmSendsAsWritten(o);
  }

  /** handleOrderUpdate compared with the values the edit state was seeded
      with, so that only an edit sends a request. */
  function Confirm(o: Order, status: string, tracking: string): (r: Option<Update>)
    ensures r.Some? <==> HasId(o) && (Capitalize(status) != Capitalize(SeedStatus(o)) || tracking != SeedTracking(o))
    ensures r.Some? ==> r.value == Update(o.id.value, status, tracking)
  {
    var statusChanged := Capitalize(status) != Capitalize(SeedStatus(o));
    var trackingChanged := tracking != SeedTracking(o);
    if HasId(o) && (statusChanged || trackingChanged) then Some(Update(o.id.value, status, tracking))
    else None
  }

  /** Confirm without an edit sends nothing. */
  lemma ConfirmUntouchedSendsNothing(o: Order)
    ensures Confirm(o, SeedStatus(o), SeedTracking(o)) == None
  {
  }

  /** Capitalising the first letter of a status is no edit. */
  lemma CapitalizeIdempotent(s: string)
    ensures Capitalize(Capitalize(s)) == Capitalize(s)
  {
    if s != [] {
      assert UpperChar(UpperChar(s[0])) == UpperChar(s[0]);
    }
  }

  /** Confirm after only capitalising the status's first letter sends
      nothing, with or without the correction. */
  lemma ConfirmIgnoresCapitalizing(o: Order)
    ensures Confirm(o, Capitalize(SeedStatus(o)), SeedTracking(o)) == None
    ensures o.trackingNumber.Some? ==> ConfirmAsWritten(o, Capitalize(o.status), o.trackingNumber.value) == None
  {
    CapitalizeIdempotent(SeedStatus(o));
    CapitalizeIdempotent(o.status);
  }

  /** A changed tracking number, or a status that differs beyond the case of
      its first letter, is sent. */
  lemma ConfirmSendsEdits(o: Order, status: string, tracking: string)
    requires HasId(o)
    requires tracking != SeedTracking(o) || Capitalize(status) != Capitalize(SeedStatus(o))
    ensures Confirm(o, status, tracking) == Some(Update(o.id.value, status, tracking))
  {
  }

  /** On an order with a status and a tracking number the correction
      changes nothing. */
  lemma ConfirmAgreesWhenFieldsSet(o: Order, status: string, tracking: string)
    requires o.status != "" && o.trackingNumber.Some? && o.trackingNumber.value != ""
    ensures Confirm(o, status, tracking) == ConfirmAsWritten(o, status, tracking)
  {
  }

  // ---------------------------------------------------------------- labels

  /** replace(/([A-Z])/g, " $1"): a space before every capital letter. */
  function SpaceBeforeCapitals(s: string): (r: string)
    ensures forall c :: c in r ==> c in s || c == ' '
    decreases |s|
  {
    if s == [] then []
    else (if IsUpperAscii(s[0]) then [' ', s[0]] else [s[0]]) + SpaceBeforeCapitals(s[1..])
  }

  /** replace(/_/g, " "). */
  function UnderscoresToSpaces(s: string): (r: string)
    ensures |r| == |s| && '_' !in r
    ensures forall i :: 0 <= i < |s| ==> r[i] == if s[i] == '_' then ' ' else s[i]
    decreases |s|
  {
    if s == [] then [] else [if s[0] == '_' then ' ' else s[0]] + UnderscoresToSpaces(s[1..])
  }

  function CapitalizeAll(words: seq<string>): (r: seq<string>)
    ensures |r| == |words|
    ensures forall k :: 0 <= k < |words| ==> r[k] == Capitalize(words[k])
  {
    seq(|words|, k requires 0 <= k < |words| => Capitalize(words[k]))
  }

  /** a is b with some letters made upper case. */
  predicate Resembles(a: string, b: string) {
    |a| == |b| && forall i :: 0 <= i < |a| ==> a[i] == b[i] || a[i] == UpperChar(b[i])
  }

  lemma ResemblesConcat(a: string, b: string, a': string, b': string)
    requires Resembles(a, b) && Resembles(a', b')
    ensures Resembles(a + a', b + b')
  {
    forall i | 0 <= i < |a + a'|
      ensures (a + a')[i] == (b + b')[i] || (a + a')[i] == UpperChar((b + b')[i])
    {
      if i >= |a| {
        assert (a + a')[i] == a'[i - |a|] && (b + b')[i] == b'[i - |a|];
      }
    }
  }

  /** Capitalising the words of a sentence only capitalises letters of it. */
  lemma {:induction false} JoinCapitalized(words: seq<string>)
    ensures Resembles(Join(CapitalizeAll(words), ' '), Join(words, ' '))
    decreases |words|
  {
    var caps := CapitalizeAll(words);
    if |words| > 1 {
      JoinCapitalized(words[1..]);
      assert CapitalizeAll(words[1..]) == caps[1..];
      ResemblesConcat(caps[0], words[0], [' '], [' ']);
      ResemblesConcat(caps[0] + [' '], words[0] + [' '], Join(caps[1..], ' '), Join(words[1..], ' '));
    }
  }

  /** The billing-field and item-description label: camelCase and
      snake_case split into capitalised words. */
  function FormatLabel(key: string): (r: string)
    ensures '_' !in r
    ensures r != [] ==> !IsSpace(r[0]) && !IsSpace(r[|r| - 1])
  {
    var t := Trim(UnderscoresToSpaces(SpaceBeforeCapitals(key)));
    var r := Join(CapitalizeAll(Split(t, ' ')), ' ');
    JoinSplit(t, ' ');
    JoinCapitalized(Split(t, ' '));
    ResemblesKeepsShape(r, t);
    r
  }

  /** Upper-casing letters adds no underscore and no white space. */
  lemma ResemblesKeepsShape(r: string, t: string)
    requires Resembles(r, t) && '_' !in t
    requires t != [] ==> !IsSpace(t[0]) && !IsSpace(t[|t| - 1])
    ensures '_' !in r
    ensures r != [] ==> !IsSpace(r[0]) && !IsSpace(r[|r| - 1])
  {
    forall i | 0 <= i < |r| ensures r[i] != '_' {
      assert t[i] in t;
    }
  }

  // ---------------------------------------------------------------- colour

  const AddedColour: string := "#FF0000"
  const InProgressColour: string := "#FFA500"
  const FulfilledColour: string := "#008000"

  /** The badge colour of a status, compared in lower case. */
  function StatusColour(status: string): (r: string)
    ensures r == AddedColour <==> Lower(status) == "added"
    ensures r == InProgressColour <==> Lower(status) == "in_progress"
    ensures r == FulfilledColour <==> Lower(status) != "added" && Lower(status) != "in_progress"
  {
    if Lower(status) == "added" then AddedColour
    else if Lower(status) == "in_progress" then InProgressColour
    else FulfilledColour
  }

  /** The button colour of each stage in the card editor. */
  function ButtonColour(s: Stage): string {
    match s
    case Added => AddedColour
    case InProgress => InProgressColour
    case Fulfilled => FulfilledColour
  }

  /** After an edit, the badge takes the colour of the button that set the
      status, and the tab's spelling of the status gives the same colour. */
  lemma BadgeMatchesEditorButton(s: Stage)
    ensures StatusColour(Written(s)) == ButtonColour(s)
    ensures StatusColour(TabLabel(s)) == ButtonColour(s)
  {
    StageForms(s);
    assert |Written(Added)| == 5 && |Written(InProgress)| == 11 && |Written(Fulfilled)| == 9;
  }
}

=== FILE: signup.dfy ===
/** The sign-up form's submit handler: two checks, in order, before the
    request goes out. */
module Signup {

  const MissingMessage: string := "All credentials must be entered"
  const MismatchMessage: string := "Passwords must be the same"

  /** Either the error the form shows, or the request body it posts. */
  datatype Outcome = Rejected(message: string) | Request(userEmail: string, password: string)

  /** handleSignUp. */
  function SignUp(email: string, password: string, reEntered: string): (r: Outcome)
    ensures email == "" || password == "" || reEntered == "" ==> r == Rejected(MissingMessage)
    ensures email != "" && password != "" && reEntered != "" && password != reEntered ==> r == Rejected(MismatchMessage)
    ensures r.Request? <==> email != "" && password != "" && password == reEntered
  {
    if email == "" || password == "" || reEntered == "" then Rejected(MissingMessage)
    else if password != reEntered then Rejected(MismatchMessage)
    else Request(email, password)
  }

  /** A request carries the e-mail typed and a password typed twice the same. */
  lemma RequestIsConfirmed(email: string, password: string, reEntered: string)
    requires SignUp(email, password, reEntered).Request?
    ensures SignUp(email, password, reEntered) == Request(email, password)
    ensures password == reEntered && password != "" && email != ""
  {
  }

  /** A blank field is reported even when the passwords also differ. */
  lemma MissingBeforeMismatch(email: string, password: string)
    requires password != ""
    ensures SignUp(email, password, "") == Rejected(MissingMessage)
    ensures SignUp("", password, password + "x") == Rejected(MissingMessage)
  {
  }
}

=== FILE: text.dfy ===
/** String helpers with the semantics of the JavaScript string methods the
    storefront calls: toLowerCase/toUpperCase (ASCII letters only), trim,
    startsWith, includes, split/join on a one-character separator, and the
    decimal form of an integer (Number.prototype.toString). */
module Text {

  datatype Option<+T> = None | Some(value: T)

  predicate IsUpperAscii(c: char) { 'A' <= c <= 'Z' }

  predicate IsLowerAscii(c: char) { 'a' <= c <= 'z' }

  function LowerChar(c: char): char {
    if IsUpperAscii(c) then (c as int + 32) as char else c
  }

  function UpperChar(c: char): char {
    if IsLowerAscii(c) then (c as int - 32) as char else c
  }

  /** String.prototype.toLowerCase, restricted to ASCII letters. */
  function Lower(s: string): (r: string)
    ensures |r| == |s|
    ensures forall i :: 0 <= i < |s| ==> r[i] == LowerChar(s[i])
  {
    if s == [] then [] else [LowerChar(s[0])] + Lower(s[1..])
  }

  /** The characters String.prototype.trim removes: WhiteSpace and LineTerminator. */
  predicate IsSpace(c: char) {
    || c == ' ' || (9 <= c as int <= 13) || c as int == 0xA0 || c as int == 0x1680
    || (0x2000 <= c as int <= 0x200A) || c as int == 0x2028 || c as int == 0x2029
    || c as int == 0x202F || c as int == 0x205F || c as int == 0x3000 || c as int == 0xFEFF
  }

  /** The number of white-space characters s starts with. */
  function LeadingSpaces(s: string): (n: nat)
    ensures n <= |s|
    ensures forall i :: 0 <= i < n ==> IsSpace(s[i])
    ensures n < |s| ==> !IsSpace(s[n])
    decreases |s|
  {
    if s != [] && IsSpace(s[0]) then 1 + LeadingSpaces(s[1..]) else 0
  }

  function TrimStart(s: string): (r: string)
    ensures |r| <= |s| && r == s[|s| - |r|..]
    ensures r != [] ==> !IsSpace(r[0])
  {
    s[LeadingSpaces(s)..]
  }

  function TrimEnd(s: string): (r: string)
    ensures |r| <= |s| && r == s[..|r|]
    ensures r != [] ==> !IsSpace(r[|r| - 1])
    ensures forall i :: |r| <= i < |s| ==> IsSpace(s[i])
  {
    if s != [] && IsSpace(s[|s| - 1]) then TrimEnd(s[..|s| - 1]) else s
  }

  /** String.prototype.trim. */
  function Trim(s: string): (r: string)
    ensures r != [] ==> !IsSpace(r[0]) && !IsSpace(r[|r| - 1])
    ensures |r| <= |s| && forall c :: c in r ==> c in s
  {
    var t := TrimStart(s);
    var r := TrimEnd(t);
    assert forall c :: c in r ==> c in t;
    r
  }

  predicate StartsWith(s: string, prefix: string) {
    |prefix| <= |s| && s[..|prefix|] == prefix
  }

  /** String.prototype.includes: some suffix of s starts with q. */
  predicate Includes(s: string, q: string)
    decreases |s|
  {
    StartsWith(s, q) || (s != [] && Includes(s[1..], q))
  }

  lemma {:induction false} IncludesAt(s: string, q: string, i: nat)
    requires i <= |s| && StartsWith(s[i..], q)
    ensures Includes(s, q)
    decreases i
  {
    if i > 0 {
      assert s[1..][i - 1..] == s[i..];
      IncludesAt(s[1..], q, i - 1);
    }
  }

  lemma StartsWithIncludes(s: string, q: string)
    requires StartsWith(s, q)
    ensures Includes(s, q)
  {
  }

  /** Position of the first occurrence of c in s. */
  function IndexOf(s: string, c: char): (i: nat)
    requires c in s
    ensures i < |s| && s[i] == c && c !in s[..i]
  {
    if s[0] == c then 0 else 1 + IndexOf(s[1..], c)
  }

  /** String.prototype.split with a one-character separator. */
  function Split(s: string, sep: char): (parts: seq<string>)
    ensures |parts| >= 1
    ensures forall k :: 0 <= k < |parts| ==> sep !in parts[k]
    decreases |s|
  {
    if sep !in s then [s]
    else
      var i := IndexOf(s, sep);
      [s[..i]] + Split(s[i + 1..], sep)
  }

  /** Array.prototype.join with a one-character separator. */
  function Join(parts: seq<string>, sep: char): string
    decreases |parts|
  {
    if parts == [] then ""
    else if |parts| == 1 then parts[0]
    else parts[0] + [sep] + Join(parts[1..], sep)
  }

  /** Joining the pieces of a split restores the string. */
  lemma {:induction false} JoinSplit(s: string, sep: char)
    ensures Join(Split(s, sep), sep) == s
    decreases |s|
  {
    if sep in s {
      var i := IndexOf(s, sep);
      var rest := Split(s[i + 1..], sep);
      JoinSplit(s[i + 1..], sep);
      assert Split(s, sep) == [s[..i]] + rest;
      assert Join(Split(s, sep), sep) == s[..i] + [sep] + Join(rest, sep);
      assert s == s[..i] + [sep] + s[i + 1..];
    }
  }

  /** Splitting the join of separator-free pieces gives the pieces back. */
  lemma {:induction false} SplitJoin(parts: seq<string>, sep: char)
    requires |parts| >= 1
    requires forall k :: 0 <= k < |parts| ==> sep !in parts[k]
    ensures Split(Join(parts, sep), sep) == parts
    decreases |parts|
  {
    if |parts| > 1 {
      var s := Join(parts, sep);
      assert s == parts[0] + [sep] + Join(parts[1..], sep);
      assert s[|parts[0]|] == sep;
      assert s[..|parts[0]|] == parts[0];
      assert sep !in s[..|parts[0]|];
      var i := IndexOf(s, sep);
      assert i == |parts[0]|;
      assert s[i + 1..] == Join(parts[1..], sep);
      SplitJoin(parts[1..], sep);
    }
  }

  function DigitChar(d: nat): char
    requires d < 10
  {
    ('0' as int + d) as char
  }

  predicate IsDigit(c: char) { '0' <= c <= '9' }

  predicate AllDigits(s: string) { forall i :: 0 <= i < |s| ==> IsDigit(s[i]) }

  /** The value of a string of decimal digits. */
  function DigitsValue(s: string): nat
    requires AllDigits(s)
    decreases |s|
  {
    if s == [] then 0 else 10 * DigitsValue(s[..|s| - 1]) + (s[|s| - 1] as int - '0' as int)
  }

  /** Decimal numeral of a natural number, without leading zeros. */
  function NatToString(n: nat): (r: string)
    ensures |r| >= 1 && AllDigits(r)
    ensures r[0] != '0' || |r| == 1
    decreases n
  {
    if n < 10 then [DigitChar(n)] else NatToString(n / 10) + [DigitChar(n % 10)]
  }

  /** Number.prototype.toString for an integer. */
  function IntToString(n: int): string {
    if n < 0 then "-" + NatToString(-n) else NatToString(n)
  }

  /** Reading back a printed numeral gives the number. */
  lemma {:induction false} NatToStringValue(n: nat)
    ensures DigitsValue(NatToString(n)) == n
    decreases n
  {
    if n >= 10 {
      NatToStringValue(n / 10);
      var s := NatToString(n);
      assert s[..|s| - 1] == NatToString(n / 10);
    }
  }

  /** A numeral without a leading zero is the printed form of its value. */
  lemma {:induction false} ValueNatToString(s: string)
    requires |s| >= 1 && AllDigits(s) && (s[0] != '0' || |s| == 1)
    ensures NatToString(DigitsValue(s)) == s
    decreases |s|
  {
    if |s| > 1 {
      var p := s[..|s| - 1];
      ValueNatToString(p);
      PositiveValue(p);
      var d := s[|s| - 1] as int - '0' as int;
      assert DigitsValue(s) / 10 == DigitsValue(p) && DigitsValue(s) % 10 == d;
      assert s == p + [s[|s| - 1]];
    }
  }

  lemma {:induction false} PositiveValue(s: string)
    requires |s| >= 1 && AllDigits(s) && s[0] != '0'
    ensures DigitsValue(s) >= 1
    decreases |s|
  {
    if |s| > 1 {
      PositiveValue(s[..|s| - 1]);
    }
  }
}
